=== FILE: README.md ===
# iced_audio parameters and horizontal slider, in Dafny

This project models two parts of iced_audio, a widget library for audio
plug-in user interfaces.

**Parameters** (`src/core/param.rs`). A parameter holds a domain value and
its position on a widget, a `Normal` in [0, 1]. It also holds a default
value with its own normal. There are four kinds:

- `FloatParam`: a linear float range. `normal_to_value` snaps results to
  the default value when they fall within 0.001 of it.
- `IntParam`: a linear integer range. `set_from_normal` rounds to the
  nearest step and stores that step's canonical normal.
- `LogDBParam`: a decibel range. A square-root curve runs on each side of a
  stationary point: 0 dB sits at `zero_normal`.
- `OctaveParam`: a frequency range inside the ten-octave spectrum
  20 Hz .. 20480 Hz, where every octave takes an equal share of the
  slider.

Each kind is a Dafny `class` with the fields of the Rust struct: `value`,
`normal`, the defaults, and the constant configuration. `LogDBParam` and
`OctaveParam` have one field more, the constant `math`: the `sqrt`, `log2`
and `2^x` functions their mappings call (see below). The classes model the
following:

- `new` is the constructor. Its panics are its `requires`.
- `set_from_value` and `set_from_normal` are methods. They are no-ops when
  nothing changed, and otherwise update the fields in place.
- `value_to_normal` and `normal_to_value` are functions on the
  configuration.

Each class keeps an invariant `Valid()` stating that:

- the configuration is consistent;
- both values lie in range;
- the default normal belongs to the default value;
- the value and the normal agree in the direction of whichever of the two
  was set last.

Conversion into `Normal` clamps (`Normals.ToNormal`). The platform's
`sqrt`, `log2` and `2^x` are a record of functions (`FloatMath.MathLib`)
constrained only by the laws the mappings rely on:

- `SqrtLawful`: the root is non-negative, squares back, and is monotone;
- `LogLawful`: `log2` and `2^x` are inverse to each other, `log2` is
  strictly increasing, doubling adds 1 to it (`log2(2x) = log2(x) + 1`),
  `log2(0.5) = -1` and `log2(512) = 9`.

The proofs cover the following:

- the round trips, kind by kind:
  - `FloatParam`: value to normal to value is the identity, except that a
    value within 0.001 of the default comes back as the default. In the
    other direction, `normal_to_value` gives the default value or a value
    whose normal is the one given.
  - `IntParam`: value to normal to value is the identity. Normal to value
    to normal quantises: it gives the canonical normal of the nearest
    step, and doing it again gives the same normal.
  - `LogDBParam` and `OctaveParam`: the round trip holds in both
    directions. For decibels this needs the zero normal and the range to
    leave room on the relevant side of 0 dB (see "Left out").
- that value-to-normal is strictly increasing for `OctaveParam`, and for
  `LogDBParam` wherever the zero normal leaves room on each value's side
  (0 < zero_normal for cuts, zero_normal < 1 for boosts), so the demo's
  tick marks appear in order (for
  `FloatParam` and `IntParam` the mapping is linear in range, as their
  `ValueToNormal` contracts state);
- the ends of each mapping;
- the 0 dB stationary point;
- the degenerate branches of the decibel mapping;
- that equal slider steps change the decibel value more the further they
  are from 0 dB, on both sides;
- that octaves are evenly spaced: doubling a frequency moves its normal by
  the same amount wherever it starts;
- quantisation to a canonical normal for integers.

**Horizontal slider** (`src/native/h_slider.rs`). `State` is the
per-widget state that outlives each rebuilt `HSlider`. `HSlider::on_event`
turns mouse and keyboard events into updates of that state and into
`(id, normal)` messages pushed onto a vector:

- a single click starts a drag;
- a double or triple click asks for the default normal;
- a cursor move during a drag adds an unclamped increment to an
  accumulator, scaled down while the modifier keys are held;
- a release resets the accumulator;
- a keyboard event records the modifiers held.

`OnEvent` states the whole new state and the messages for every kind of
event. Drags made of many cursor moves are covered as follows:

- `DragTo` is the accumulator after a drag through a sequence of cursor
  positions. Its contract says a drag sums to its net motion, so only
  where it began and where the cursor is now matter.
- `HSlider.DragThrough` feeds such a sequence to `OnEvent`, one move at a
  time. The accumulator ends at `DragTo`, and each move's message carries
  the clamped `DragTo` of the drag so far.
- `DragRecoversAtCrossing`: with the modifier keys not held, after
  overshooting the left end the slider stays at 0 until the cursor comes back past the exact point where the
  accumulator crossed 0.

Files:

- `normal.dfy`: `Normal` and clamping.
- `float_math.dfy`: the function laws and real-arithmetic lemmas.
- `param_common.dfy`: `constrain` and the `Param` view.
- `float_param.dfy`, `int_param.dfy`, `log_db_param.dfy`,
  `octave_param.dfy`: one file per parameter kind.
- `h_slider.dfy`: the slider.

## Model

| member | source | states |
|---|---|---|
| Normals.ToNormal | src/core/param.rs:162 | conversion into a `Normal` keeps a value in [0, 1] and sends anything below 0 to 0 and anything above 1 to 1 |
| Normals.ToNormalIsNearest | src/core/param.rs:162 | the clamped normal is the `Normal` nearest to the converted float |
| FloatMath.Round | src/core/param.rs:339 | `f32::round`: the result is within one half of the input, with half-way cases going away from zero |
| ParamCommon.Clamp | src/core/param.rs:148-156 | `constrain` always lands in [min, max], is the identity inside it, and sends values beyond an end to that end |
| ParamCommon.ClampInt | src/core/param.rs:318-326 | the same on integers, for `IntParam` |
| FloatParams.FloatParam.View | src/core/param.rs:180-192 | the `Param` accessors as a `ParamCommon.ParamView`: the id, and for a valid parameter the default value's normal and a normal that is the value's or leads back to the value |
| FloatParams.FloatParam.constructor | src/core/param.rs:75-105 | `new` requires `max > min`; it stores the constrained value and default, sets their normals by `value_to_normal`, and establishes the invariant |
| FloatParams.FloatParam.SetFromValue | src/core/param.rs:119-124 | an equal value changes nothing; otherwise value := constrain(v) and normal := value_to_normal(value); nothing else changes and the invariant holds |
| FloatParams.FloatParam.SetFromNormal | src/core/param.rs:132-137 | an equal normal changes nothing; otherwise the normal is stored as given and the value becomes normal_to_value(n), not re-constrained |
| FloatParams.FloatParam.ValueToNormal | src/core/param.rs:161-163 | in range, the normal is the proportional position: n * range + min == v; beyond an end it is 0 or 1 |
| FloatParams.FloatParam.NormalToValue | src/core/param.rs:168-177 | the result lies in range, is within 0.001 of the linear value, and is either the default value or a value that maps back to n |
| FloatParams.FloatRoundTrip | src/core/param.rs:161-177 | every in-range value survives value to normal to value, except that one within 0.001 of the default comes back as the default |
| IntParams.IntParam.View | src/core/param.rs:343-355 | the `Param` accessors: the id, and for a valid parameter the default value's normal and the value's own normal, from which the value comes back unchanged |
| IntParams.IntParam.constructor | src/core/param.rs:232-263 | `new` requires `max > min`; it constrains the value and default and sets their canonical normals |
| IntParams.IntParam.SetFromValue | src/core/param.rs:276-281 | an equal value changes nothing; otherwise value := constrain(v) with its canonical normal |
| IntParams.IntParam.SetFromNormal | src/core/param.rs:302-307 | an equal normal changes nothing; otherwise the value is the rounded, constrained step and the stored normal is that step's canonical normal; afterwards a repeat call would change nothing |
| IntParams.IntParam.ValueToNormal | src/core/param.rs:331-333 | in range, n * range == v - min; beyond an end the normal is 0 or 1 |
| IntParams.IntParam.NormalToValue | src/core/param.rs:338-340 | the nearest integer to the linear value (within one half), always in range, so the clamp after it never fires |
| IntParams.IntTieRoundsUp | src/core/param.rs:338-340 | a normal exactly half-way between two steps gives the upper step (`round` sends halves away from zero, and the scaled normal is never negative) |
| IntParams.IntRoundTrip | src/core/param.rs:331-340 | every integer in range survives value to normal to value |
| IntParams.IntCanonicalNormal | src/core/param.rs:302-307 | the stored normal is canonical: re-quantising it gives the same normal |
| IntParams.IntSetFromNormalExample | src/core/param.rs:288-299 | the documented example: over 0..2 holding 1, setting 0.8 gives value 2 and normal 1.0 |
| IntParams.SetFromNormalTwice | src/core/param.rs:302-307 | calling `set_from_normal` twice with the same normal leaves what one call left |
| LogDBParams.LogDBParam.View | src/core/param.rs:553-565 | the `Param` accessors: the id, and for a valid parameter the default value's normal and a normal that is the value's or leads back to the value |
| LogDBParams.LogDBParam.constructor | src/core/param.rs:408-444 | `new` requires max > min, max >= 0 and min <= 0; it constrains the value and default and sets their normals |
| LogDBParams.LogDBParam.SetFromValue | src/core/param.rs:456-461 | an equal value changes nothing; otherwise value := constrain(v), normal := value_to_normal(value) |
| LogDBParams.LogDBParam.SetFromNormal | src/core/param.rs:469-474 | an equal normal changes nothing; otherwise the normal is stored and the value is normal_to_value(n) |
| LogDBParams.LogDBParam.ValueToNormal | src/core/param.rs:488-512 | 0 dB maps to zero_normal; cuts lie at or below it and boosts at or above it, and strictly so inside the range when the zero normal leaves room on that side (0 < zero_normal for cuts, zero_normal < 1 for boosts); the degenerate branches give 0 and 1; min and below give 0, max and above give 1 |
| LogDBParams.LogDBParam.NormalToValue | src/core/param.rs:527-550 | the result lies in [min, max]; zero_normal gives 0 dB; normals below it give cuts, above it boosts; the degenerate branches give min and max; 0 gives min and 1 gives max |
| LogDBParams.BelowZeroNormal | src/core/param.rs:495-499 | the cut branch of `value_to_normal`, `(1 - sqrt(v / min)) * zero_normal`; no contract of its own: `BelowZeroCurve`, `BelowZeroMonotone` and `BelowZeroRoundTrip` state its range, order and inverse |
| LogDBParams.AboveZeroNormal | src/core/param.rs:504-510 | the boost branch of `value_to_normal`, `sqrt(v / max) * (1 - zero_normal) + zero_normal`; no contract of its own: `AboveZeroCurve`, `AboveZeroMonotone` and `AboveZeroRoundTrip` state its range, order and inverse |
| LogDBParams.BelowZeroValue | src/core/param.rs:534-538 | the cut branch of `normal_to_value`; no contract of its own: `BelowZeroInverse`, `BelowZeroNormalRoundTrip` and `BelowZeroStepsGrow` state its range, inverse and growth |
| LogDBParams.AboveZeroValue | src/core/param.rs:543-548 | the boost branch of `normal_to_value`; no contract of its own: `AboveZeroInverse`, `AboveZeroNormalRoundTrip` and `AboveZeroStepsGrow` state its range, inverse and growth |
| LogDBParams.BelowZeroCurve | src/core/param.rs:493-501 | the cut branch lands in [0, zero_normal), and at or below min it lands at or below 0 |
| LogDBParams.AboveZeroCurve | src/core/param.rs:502-511 | the boost branch lands in (zero_normal, 1], and at or above max it lands at or above 1 |
| LogDBParams.BelowZeroInverse | src/core/param.rs:530-539 | the inverse cut branch lands in [min, 0), with normal 0 at min |
| LogDBParams.AboveZeroInverse | src/core/param.rs:540-549 | the inverse boost branch lands in (0, max], with normal 1 at max |
| LogDBParams.BelowZeroRoundTrip | src/core/param.rs:488-550 | on the cut side, the square of the inverse undoes the root: value to normal to value is the identity |
| LogDBParams.AboveZeroRoundTrip | src/core/param.rs:488-550 | the same on the boost side |
| LogDBParams.BelowZeroNormalRoundTrip | src/core/param.rs:488-550 | on the cut side, normal to value to normal is the identity |
| LogDBParams.AboveZeroNormalRoundTrip | src/core/param.rs:488-550 | the same on the boost side |
| LogDBParams.LogDBRoundTrip | src/core/param.rs:488-550 | every value in range comes back from value to normal to value, given that zero_normal leaves room on the value's side |
| LogDBParams.LogDBNormalRoundTrip | src/core/param.rs:488-550 | every normal comes back from normal to value to normal, given that the range extends to the normal's side of 0 dB |
| LogDBParams.LogDBSqueezedSide | src/core/param.rs:488-529 | with the zero normal at 0, a cut maps to normal 0, the zero normal, and comes back as 0 dB; with it at 1, a boost likewise |
| LogDBParams.LogDBFlatSide | src/core/param.rs:488-550 | with `min == 0`, a normal below the zero normal gives 0 dB, whose normal is the zero normal; with `max == 0`, a normal above it likewise |
| LogDBParams.BelowZeroMonotone | src/core/param.rs:493-501 | the cut branch is monotone in the value |
| LogDBParams.AboveZeroMonotone | src/core/param.rs:502-511 | the boost branch is monotone in the value |
| LogDBParams.LogDBMonotone | src/core/param.rs:488-512 | value_to_normal is strictly increasing on the range when the zero normal leaves room on each value's side (0 < zero_normal for cuts, zero_normal < 1 for boosts) |
| LogDBParams.AboveZeroStepsGrow | src/core/param.rs:540-549 | on the boost curve, a step of fixed length changes the value more when it starts further above the zero normal |
| LogDBParams.BelowZeroStepsGrow | src/core/param.rs:530-539 | on the cut curve, a step of fixed length changes the value more when it lies further below the zero normal |
| LogDBParams.LogDBBoostStepsGrow | src/core/param.rs:527-550 | for a parameter with a positive max: between the zero normal and 1, equal slider steps change `normal_to_value` more far from 0 dB than near it |
| LogDBParams.LogDBCutStepsGrow | src/core/param.rs:527-550 | for a parameter with a negative min: between 0 and the zero normal, equal slider steps change `normal_to_value` more far from 0 dB than near it |
| LogDBParams.LogDBMarksInOrder | src/core/param.rs:488-512 | increasing values give strictly increasing normals when the zero normal leaves room on each value's side (0 < zero_normal for cuts, zero_normal < 1 for boosts) |
| LogDBParams.LogDBDemo | examples/basic_inputs_steps/step_h_sliders.rs:83-90 | the demo's -12..12 dB slider puts its nine tick marks in order, with -12 dB at 0, 0 dB at 0.5 and 12 dB at 1 |
| OctaveParams.SpectrumToNormal | src/core/param.rs:749-751 | for a positive frequency, the normal is 0 exactly at or below 20 Hz and 1 exactly at or above 20480 Hz |
| OctaveParams.NormalToSpectrum | src/core/param.rs:741-743 | every normal maps into 20 Hz..20480 Hz, with 0 at 20 Hz and 1 at 20480 Hz |
| OctaveParams.SpectrumEnds | src/core/param.rs:741-751 | 20 Hz maps to 0 and 20480 Hz to 1, and back |
| OctaveParams.SpectrumUnclamped | src/core/param.rs:749-751 | inside the spectrum the conversion into `Normal` does not clamp |
| OctaveParams.SpectrumRoundTrip | src/core/param.rs:741-751 | a frequency inside the spectrum survives frequency to normal to frequency |
| OctaveParams.NormalSpectrumRoundTrip | src/core/param.rs:741-751 | every normal maps into the spectrum and back to itself |
| OctaveParams.NormalToSpectrumMonotone | src/core/param.rs:741-743 | normal to frequency is monotone, and strictly so |
| OctaveParams.SpectrumMonotone | src/core/param.rs:749-751 | frequency to normal is monotone on positive frequencies, and strictly so inside the spectrum |
| OctaveParams.NarrowMin | src/core/param.rs:624-627 | a min below 20 Hz becomes exactly 20 Hz, and any other min is kept |
| OctaveParams.NarrowMax | src/core/param.rs:629-632 | a max above 20480 Hz becomes exactly 20480 Hz, and any other max is kept |
| OctaveParams.RawBoundsCheckAdmitsEmptyRange | src/core/param.rs:622-641 | the check as written accepts (5, 10) and (20480, 30000), whose narrowed ranges are empty or reversed and have a zero spectrum span |
| OctaveParams.BoundsCheckSound | src/core/param.rs:622-632 | the corrected check implies the original one, agrees with it inside the spectrum, and holds exactly when the narrowed bounds form a non-empty range in the spectrum |
| OctaveParams.OctaveParam.View | src/core/param.rs:753-765 | the `Param` accessors: the id, and for a valid parameter the default value's normal and a normal that is the value's or leads back to the value |
| OctaveParams.OctaveParam.constructor | src/core/param.rs:615-665 | `new` with the corrected check narrows min and max, sets the spectrum normal of min and the spectrum span, constrains the value and default, and sets their normals |
| OctaveParams.OctaveParam.SetFromValue | src/core/param.rs:677-682 | an equal value changes nothing; otherwise value := constrain(v), normal := value_to_normal(value) |
| OctaveParams.OctaveParam.SetFromNormal | src/core/param.rs:690-695 | an equal normal changes nothing; otherwise the normal is stored and the value is normal_to_value(n) |
| OctaveParams.OctaveParam.ValueToNormal | src/core/param.rs:719-724 | min maps to 0 and max to 1; positive frequencies at or below min give 0, at or above max give 1 |
| OctaveParams.OctaveParam.NormalToValue | src/core/param.rs:729-736 | the result lies in [min, max]; 0 gives min and 1 gives max |
| OctaveParams.OctaveRoundTrip | src/core/param.rs:719-736 | every frequency in range survives value to normal to value |
| OctaveParams.OctaveNormalRoundTrip | src/core/param.rs:719-736 | every normal survives normal to value to normal |
| OctaveParams.OctaveMonotone | src/core/param.rs:719-724 | value_to_normal is strictly increasing on the range |
| OctaveParams.OctaveStep | src/core/param.rs:749-751 | doubling a frequency that stays inside the spectrum adds 0.1 to its spectrum normal |
| OctaveParams.OctavesEvenlySpaced | src/core/param.rs:719-724 | doubling a frequency of the range moves its normal by `0.1 / spectrum_normal_range` wherever it starts |
| OctaveParams.OctaveMarksInOrder | src/core/param.rs:719-724 | increasing frequencies give strictly increasing normals |
| OctaveParams.OctaveDemo | examples/basic_inputs_steps/step_h_sliders.rs:92-98 | the demo's 20 Hz..20480 Hz slider puts its ten tick marks in order, starting at 0 |
| OctaveParams.OctaveNarrowingExample | src/core/param.rs:624-641 | a parameter asked for 5 Hz..30000 Hz covers 20 Hz..20480 Hz, with its ends at 0 and 1 |
| HSliders.Messages.Push | src/native/h_slider.rs:241-244 | a message is appended to the vector |
| HSliders.State.constructor | src/native/h_slider.rs:175-183 | a new state is not dragging, has prev_drag_x 0, the parameter's normal as accumulator, no modifiers and no last click |
| HSliders.HSlider.constructor | src/native/h_slider.rs:64-88 | the widget copies the parameter's id, normal and default normal; the modifier scalar is 0.02 and the modifier keys are Ctrl only |
| HSliders.HSlider.SetModifierKeys | src/native/h_slider.rs:121-127 | the modifier keys are replaced |
| HSliders.HSlider.SetModifierScalar | src/native/h_slider.rs:138-141 | the modifier scalar is replaced |
| HSliders.HSlider.OnEvent | src/native/h_slider.rs:212-287 | per event: a left press inside records the click, and a single click starts a drag at the cursor while a multi-click ends it and sends the default normal; a left release ends the drag and resets the accumulator to the widget's normal; a move while dragging over a non-zero width adds the scaled share of the width to the unclamped accumulator, moves prev_drag_x and sends the clamped normal; a keyboard event records the modifiers; anything else changes nothing and sends nothing |
| HSliders.Movement | src/native/h_slider.rs:260-270 | a drag increment spread over the whole width is the cursor's motion, times the modifier scalar when the modifier keys are held |
| HSliders.MovementAdds | src/native/h_slider.rs:260-272 | two drag increments add up to the increment over the whole distance |
| HSliders.DragTo | src/native/h_slider.rs:256-280 | a drag through any sequence of positions leaves the accumulator at its start plus the increment of the net motion, and an empty drag leaves it alone |
| HSliders.DragStep | src/native/h_slider.rs:256-280 | one more position adds one more increment, measured from the position before it |
| HSliders.HSlider.DragThrough | src/native/h_slider.rs:256-280 | moving the cursor through a sequence of positions during a drag leaves the accumulator at `DragTo`, keeps dragging from the last position, and sends one message per move, each carrying the clamped accumulator after that move |
| HSliders.DragRecoversAtCrossing | src/native/h_slider.rs:256-280 | without modifiers the slider is at 0 exactly while the cursor is at or left of the point where the accumulator crossed 0, so winding back moves it again only past that point |
| HSliders.WindBackExample | src/native/h_slider.rs:212-287 | a slider at 0.2, grabbed and dragged half its width to the left, sends 0, 0 and then 0.1 while being dragged back, and a release resets the accumulator to 0.2 |
| HSliders.DoubleClickExample | src/native/h_slider.rs:222-249 | a double click sends the default normal once and starts no drag, so a later move sends nothing |

## Left out

- Floating point: `f32` is modelled by exact reals. NaN, infinities and rounding error are not modelled. So `range_recip * range == 1` holds exactly, and the round trips are exact equalities.
- `sqrt`, `log2` and `powf` are not computed. They are functions supplied with the laws above. Frequencies at or below 0 Hz leave `log2` unconstrained, so `OctaveParams.OctaveParam.ValueToNormal` says nothing about them beyond the result being a `Normal`.
- `Normal` and `TickMarkGroup` are not part of this model. `Normal` is a subset type with a clamping conversion.
- `IntParam` uses `i32`, and `max - min` and `round() as i32` can overflow or saturate there. The model uses unbounded integers.
- `range` and `range_recip` of `LogDBParam` and `OctaveParam` are stored, but the mappings never read them. The model keeps them as fields.
- The `Param` trait is the datatype `ParamCommon.ParamView` of its three accessors. The `value` and `default_value` accessors are the classes' fields.
- `LogDBParams.LogDBRoundTrip`: requires `zero_normal > 0` for negative values and `zero_normal < 1` for positive ones. At `zero_normal == 0` every cut maps to normal 0, which is the zero normal, so it comes back as 0 dB. At `zero_normal == 1` every boost does the same. No round trip exists there (`LogDBSqueezedSide`).
- `LogDBParams.LogDBMonotone` and `LogDBParams.LogDBMarksInOrder`: require `zero_normal > 0` when a cut is involved and `zero_normal < 1` when a boost is. `new` accepts `zero_normal == 0` with `min < 0`, and then every cut maps to normal 0, so `value_to_normal` is flat on the cut side and not strictly increasing there (`LogDBSqueezedSide`). At `zero_normal == 1` the boost side is flat in the same way.
- `LogDBParams.LogDBNormalRoundTrip`: requires `min < 0` for normals below the zero normal and `max > 0` for normals above it. With `min == 0` a normal below the zero normal maps to `min`, which is 0 dB, and the normal of 0 dB is the zero normal, not the normal started from. `max == 0` is the mirror case (`LogDBFlatSide`).
- `OctaveParams.OctaveParam.constructor`: requires the corrected bounds check rather than the raw one (see Findings).
- `mouse::Click` is not modelled. Its double-click timing is an input, `ClickKind`.
- `Rectangle::contains` is not modelled. Whether the cursor is inside the bounds is a boolean input.
- The layout is not modelled. The bounds' width is a real input.
- `ModifiersState::matches` is not part of this model. It is a function parameter of `OnEvent`, so every statement holds for any meaning of it.
- `on_change` is not modelled. Messages are the `(id, normal)` pairs given to it.
- Other widget plumbing is not modelled: `layout`, `draw`, `hash_layout`, the `Renderer` trait, the `Element` conversion, and the `width`, `height`, `style` and `tick_marks` setters.
- The rest of the repository is out of scope: rendering, styles and the demo application's view and update code. The demo supplies only the concrete values used by `LogDBDemo` and `OctaveDemo`.

## Findings

| source | as written | input that shows it | evidently intended | confidence | as-written member | corrected member |
|---|---|---|---|---|---|---|
| src/core/param.rs:622-641 | `OctaveParam::new` asserts `max > min` on the raw arguments, and only then narrows `min` up to 20 Hz and `max` down to 20480 Hz | `min = 5, max = 10` passes and yields min 20 > max 10; `min = 20480, max = 30000` passes and yields min == max; both have a zero spectrum span, so `value_to_normal` divides by 0 | the narrowed bounds should form a non-empty range, i.e. check `max > min` after narrowing | not executed | OctaveParams.RawBoundsCheckAdmitsEmptyRange | OctaveParams.BoundsCheckSound |

=== FILE: float_math.dfy ===
/** The pieces of Rust's `f32` arithmetic that the parameter mappings rely
    on, over exact reals. The transcendental functions of the platform's
    float library are not defined here: they are carried as a record of
    functions together with the laws the mappings need of them. */
module FloatMath {

  /** `f32::sqrt`, `f32::log2` and `2.0_f32.powf`. */
  datatype MathLib = MathLib(sqrt: real -> real, log2: real -> real, pow2: real -> real)

  /** The laws of the real square root that the decibel mapping uses. */
  ghost predicate SqrtLawful(m: MathLib)
  {
    && (forall x :: 0.0 <= x ==> 0.0 <= m.sqrt(x) && m.sqrt(x) * m.sqrt(x) == x)
    && (forall x, y :: 0.0 <= x <= y ==> m.sqrt(x) <= m.sqrt(y))
  }

  /** Doubling, named so that the doubling law of `log2` is used only where
      a proof asks for it. */
  function Twice(x: real): real
  {
    2.0 * x
  }

  /** The laws of the binary logarithm and the power of two that the
      frequency mapping uses; doubling adds one to the logarithm. */
  ghost predicate LogLawful(m: MathLib)
  {
    && (forall y :: 0.0 < m.pow2(y))
    && (forall x :: 0.0 < x ==> m.log2(Twice(x)) == m.log2(x) + 1.0)
    && (forall x :: 0.0 < x ==> m.pow2(m.log2(x)) == x)
    && (forall y :: m.log2(m.pow2(y)) == y)
    && (forall x, y :: 0.0 < x < y ==> m.log2(x) < m.log2(y))
    && m.log2(0.5) == -1.0
    && m.log2(512.0) == 9.0
  }

  /** `f32::round`: the nearest integer, half-way cases rounded away from
      zero. The two bounds below pin the result down uniquely. */
  function Round(x: real): (r: int)
    ensures 0.0 <= x ==> x - 0.5 < r as real <= x + 0.5
    ensures x < 0.0 ==> x - 0.5 <= r as real < x + 0.5
  {
    if x >= 0.0 then (x + 0.5).Floor else -((-x + 0.5).Floor)
  }

  /** Signs of products, stated once for the nonlinear steps below. */
  lemma MulNonneg(x: real, y: real)
    requires 0.0 <= x && 0.0 <= y
    ensures 0.0 <= x * y
  {
  }

  lemma MulPos(x: real, y: real)
    requires 0.0 < x && 0.0 < y
    ensures 0.0 < x * y
  {
  }

  lemma MulSub(x: real, y: real, z: real)
    ensures x * (y - z) == x * y - x * z
  {
  }

  /** Where a quotient of two positive reals lies against 0 and 1. */
  lemma QuotientPositive(a: real, b: real)
    requires 0.0 < a && 0.0 < b
    ensures 0.0 < a / b
    ensures a < b ==> a / b < 1.0
    ensures b <= a ==> 1.0 <= a / b
    ensures a <= b ==> a / b <= 1.0
  {
    FactorPositive(a, b, a / b);
    if a < b {
      FactorBelowOne(a, b, a / b);
    } else {
      FactorAtLeastOne(a, b, a / b);
    }
    if a <= b {
      FactorAtMostOne(a, b, a / b);
    }
  }

  /** The same three facts for a factor `q` with `b * q == a`, one lemma
      each so that every proof sees only the hypotheses it needs. */
  lemma FactorPositive(a: real, b: real, q: real)
    requires 0.0 < b && b * q == a && 0.0 < a
    ensures 0.0 < q
  {
    if q <= 0.0 {
      MulNonneg(b, -q);
    }
  }

  lemma FactorBelowOne(a: real, b: real, q: real)
    requires 0.0 < b && b * q == a && a < b
    ensures q < 1.0
  {
    if 1.0 <= q {
      MulNonneg(b, q - 1.0);
      MulSub(b, q, 1.0);
    }
  }

  lemma FactorAtMostOne(a: real, b: real, q: real)
    requires 0.0 < b && b * q == a && a <= b
    ensures q <= 1.0
  {
    if 1.0 < q {
      MulPos(b, q - 1.0);
      MulSub(b, q, 1.0);
    }
  }

  lemma FactorAtLeastOne(a: real, b: real, q: real)
    requires 0.0 < b && b * q == a && b <= a
    ensures 1.0 <= q
  {
    if q < 1.0 {
      MulPos(b, 1.0 - q);
      MulSub(b, 1.0, q);
    }
  }

  /** A product with a non-zero factor is zero only if the other one is. */
  lemma MulZero(z: real, w: real)
    requires z != 0.0 && z * w == 0.0
    ensures w == 0.0
  {
    if 0.0 < z && 0.0 < w {
      MulPos(z, w);
    } else if 0.0 < z && w < 0.0 {
      MulPos(z, -w);
    } else if z < 0.0 && 0.0 < w {
      MulPos(-z, w);
    } else if z < 0.0 && w < 0.0 {
      MulPos(-z, -w);
    }
  }

  /** Dividing a product by one of its non-zero factors gives the other. */
  lemma Cancel(x: real, z: real)
    requires z != 0.0
    ensures (x * z) / z == x
  {
    var q := (x * z) / z;
    assert z * q == x * z;
    MulSub(z, q, x);
    MulZero(z, q - x);
  }

  /** A quotient multiplied back by its non-zero divisor. */
  lemma DivMul(a: real, b: real)
    requires b != 0.0
    ensures (a / b) * b == a
  {
  }

  lemma QuotientNegate(a: real, b: real)
    requires b != 0.0
    ensures (-a) / (-b) == a / b
  {
  }

  /** Scaling by a factor in [0, 1] moves a value towards zero. */
  lemma ScaleByUnit(q: real, x: real)
    requires 0.0 <= q <= 1.0
    ensures 0.0 <= x ==> 0.0 <= q * x <= x
    ensures x <= 0.0 ==> x <= q * x <= 0.0
    ensures 0.0 < q && x < 0.0 ==> q * x < 0.0
    ensures 0.0 < q && 0.0 < x ==> 0.0 < q * x
    ensures q < 1.0 && 0.0 < x ==> q * x < x
  {
    MulSub(x, 1.0, q);
    assert x * q == q * x;
    if 0.0 <= x {
      MulNonneg(q, x);
      MulNonneg(x, 1.0 - q);
    } else {
      MulNonneg(q, -x);
      MulNonneg(-x, 1.0 - q);
    }
    if 0.0 < q && x < 0.0 {
      MulPos(q, -x);
    }
    if 0.0 < q && 0.0 < x {
      MulPos(q, x);
    }
    if q < 1.0 && 0.0 < x {
      MulPos(x, 1.0 - q);
    }
  }

  /** Scaling a non-negative value by a factor of at least 1 does not
      shrink it. */
  lemma ScaleAboveOne(q: real, x: real)
    requires 1.0 <= q && 0.0 <= x
    ensures x <= q * x
  {
    MulNonneg(x, q - 1.0);
    MulSub(x, q, 1.0);
    assert x * q == q * x;
  }

  /** Squaring is strictly increasing on the non-negative reals. */
  lemma SquareStrictlyGrows(a: real, b: real)
    requires 0.0 <= a < b
    ensures a * a < b * b
  {
    MulPos(b - a, b + a);
    assert (b - a) * (b + a) == b * b - a * a;
  }

  /** Squaring is injective on the non-negative reals. */
  lemma SquareInjective(a: real, b: real)
    requires 0.0 <= a && 0.0 <= b && a * a == b * b
    ensures a == b
  {
    if a < b {
      SquareStrictlyGrows(a, b);
    } else if b < a {
      SquareStrictlyGrows(b, a);
    }
  }

  /** The root of a square is the non-negative base. */
  lemma SqrtOfSquare(m: MathLib, s: real)
    requires SqrtLawful(m) && 0.0 <= s
    ensures m.sqrt(s * s) == s
  {
    SquareInjective(m.sqrt(s * s), s);
  }

  /** The root maps [0, 1] into [0, 1] and [1, inf) into [1, inf). */
  lemma SqrtAgainstOne(m: MathLib, x: real)
    requires SqrtLawful(m) && 0.0 <= x
    ensures x <= 1.0 ==> m.sqrt(x) <= 1.0
    ensures 1.0 <= x ==> 1.0 <= m.sqrt(x)
    ensures x < 1.0 ==> m.sqrt(x) < 1.0
    ensures 0.0 < x ==> 0.0 < m.sqrt(x)
  {
    SqrtOfSquare(m, 1.0);
    var s := m.sqrt(x);
    if x < 1.0 && 1.0 < s {
      SquareStrictlyGrows(1.0, s);
    }
  }

  /** A quotient by a positive real is at most `c` exactly when the
      dividend is at most `c` times the divisor. */
  lemma QuotientAtMost(d: real, c: real, w: real)
    requires 0.0 < w
    ensures d / w <= c <==> d <= c * w
  {
    var q := d / w;
    DivMul(d, w);
    assert q * w == d;
    if q <= c {
      ScaleMonotone(q, c, w);
      assert d <= c * w;
    } else {
      MulPos(q - c, w);
      assert (q - c) * w == q * w - c * w;
      assert c * w < d;
    }
  }

  /** Dividing by a positive real keeps the order. */
  lemma QuotientMonotone(a: real, b: real, c: real)
    requires 0.0 < c && a <= b
    ensures a / c <= b / c
  {
    var qa, qb := a / c, b / c;
    assert c * qa == a && c * qb == b;
    if qb < qa {
      MulPos(c, qa - qb);
      MulSub(c, qa, qb);
    }
  }

  /** Scaling by a non-negative factor keeps the order. */
  lemma ScaleMonotone(x: real, y: real, z: real)
    requires x <= y && 0.0 <= z
    ensures x * z <= y * z
  {
    MulNonneg(y - x, z);
    assert (y - x) * z == y * z - x * z;
  }

  /** Where a quotient by a positive real lies against 0 and 1, for a
      dividend of any sign. */
  lemma QuotientAgainstUnit(a: real, b: real)
    requires 0.0 < b
    ensures a <= 0.0 ==> a / b <= 0.0
    ensures a == 0.0 ==> a / b == 0.0
    ensures 0.0 <= a ==> 0.0 <= a / b
    ensures a <= b ==> a / b <= 1.0
    ensures b <= a ==> 1.0 <= a / b
  {
    if 0.0 < a {
      QuotientPositive(a, b);
    } else if a < 0.0 {
      FactorPositive(-a, b, (-a) / b);
    }
  }

  /** Division by a non-zero real distributes over sums and differences. */
  lemma QuotientAdd(a: real, b: real, w: real)
    requires w != 0.0
    ensures (a + b) / w == a / w + b / w
  {
    DivMul(a, w);
    DivMul(b, w);
    assert (a / w + b / w) * w == a + b;
    Cancel(a / w + b / w, w);
  }

  lemma QuotientSub(a: real, b: real, w: real)
    requires w != 0.0
    ensures (a - b) / w == a / w - b / w
  {
    DivMul(a, w);
    DivMul(b, w);
    assert (a / w - b / w) * w == a - b;
    Cancel(a / w - b / w, w);
  }

  /** Scaling by a negated factor negates the product. */
  lemma ScaleNegate(x: real, c: real)
    ensures x * -c == -(x * c)
  {
  }

  /** A step of fixed length `e` gains more on a square the further out it
      starts: (a + e)^2 - a^2 grows with a, for any positive scale `c`.
      The four scaled squares are given as `v1`, `v1e`, `v2` and `v2e`. */
  lemma SquareStepGrows(a1: real, a2: real, e: real, c: real, v1: real, v1e: real, v2: real, v2e: real)
    requires a1 < a2 && 0.0 < e && 0.0 < c
    requires v1 == (a1 * a1) * c && v1e == ((a1 + e) * (a1 + e)) * c
    requires v2 == (a2 * a2) * c && v2e == ((a2 + e) * (a2 + e)) * c
    ensures v1e - v1 < v2e - v2
  {
    assert v1e - v1 == (2.0 * a1 * e + e * e) * c;
    assert v2e - v2 == (2.0 * a2 * e + e * e) * c;
    MulPos(a2 - a1, e);
    MulPos(2.0 * (a2 - a1) * e, c);
    assert (2.0 * a2 * e + e * e) * c - (2.0 * a1 * e + e * e) * c == (2.0 * (a2 - a1) * e) * c;
  }

  /** A sequence whose neighbours increase is increasing throughout. */
  lemma {:induction false} StepsIncreasing(s: seq<real>)
    requires forall i :: 0 < i < |s| ==> s[i - 1] < s[i]
    ensures forall i, j :: 0 <= i < j < |s| ==> s[i] < s[j]
  {
    if 1 < |s| {
      var init := s[..|s| - 1];
      StepsIncreasing(init);
      forall i, j | 0 <= i < j < |s|
        ensures s[i] < s[j]
      {
        if j < |s| - 1 {
          assert init[i] < init[j];
        } else if i < j - 1 {
          assert init[i] < init[j - 1];
        }
      }
    }
  }
}

=== FILE: float_param.dfy ===
/** `FloatParam`: a continuous linear range of values. */
module FloatParams {
  import opened Normals
  import opened FloatMath
  import opened ParamCommon

  /** Half-width of the window around the default value inside which
      `normal_to_value` answers the default value itself. */
  const SnapTolerance: real := 0.001

  class FloatParam<ID> {
    const id: ID
    var value: real
    var defaultValue: real
    var normal: Normal
    var defaultNormal: Normal
    const min: real
    const max: real
    const range: real
    const rangeRecip: real

    /** The configuration `new` sets up: a non-empty range, its width and
        the reciprocal of its width. */
    predicate Bounded()
    {
      min < max && range == max - min && rangeRecip * range == 1.0
    }

    /** Object invariant: both values lie in range, the default normal is the
        default value's, and value and normal agree in the direction of
        whichever of the two was set last. */
    ghost predicate Valid()
      reads this
    {
      && Bounded()
      && min <= value <= max
      && min <= defaultValue <= max
      && defaultNormal == ValueToNormal(defaultValue)
      && (normal == ValueToNormal(value) || value == NormalToValue(normal))
    }

    /** The `Param` accessors `id`, `normal` and `default_normal`. A valid
        parameter shows the default value's normal, and a normal that
        either is the value's or leads to the value. */
    function View(): (v: ParamView<ID>)
      reads this
      ensures v.id == id
      ensures Valid() ==> v.defaultNormal == ValueToNormal(defaultValue)
      ensures Valid() ==> v.normal == ValueToNormal(value) || value == NormalToValue(v.normal)
    {
      ParamView(id, normal, defaultNormal)
    }

    /** `FloatParam::new`; it panics unless `max > min`. Out of range initial
        and default values are clamped. */
    constructor (id: ID, min: real, max: real, value: real, defaultValue: real)
      requires max > min
      ensures Valid()
      ensures this.id == id && this.min == min && this.max == max
      ensures this.value == Clamp(value, min, max)
      ensures this.defaultValue == Clamp(defaultValue, min, max)
      ensures normal == ValueToNormal(this.value)
      ensures defaultNormal == ValueToNormal(this.defaultValue)
    {
      this.id := id;
      this.value := value;
      this.defaultValue := defaultValue;
      this.normal := 0.0;
      this.defaultNormal := 0.0;
      this.min := min;
      this.max := max;
      this.range := max - min;
      this.rangeRecip := 1.0 / (max - min);
      new;
      this.value := Clamp(value, min, max);
      this.defaultValue := Clamp(defaultValue, min, max);
      this.normal := ValueToNormal(this.value);
      this.defaultNormal := ValueToNormal(this.defaultValue);
    }

    /** `set_from_value`: nothing happens when `v` is the current value;
        otherwise the value becomes `v` clamped and the normal follows it. */
    method SetFromValue(v: real)
      requires Valid()
      modifies this`value, this`normal
      ensures Valid()
      ensures old(value) == v ==> value == old(value) && normal == old(normal)
      ensures old(value) != v ==> value == Clamp(v, min, max) && normal == ValueToNormal(value)
    {
      if value != v {
        value := Clamp(v, min, max);
        normal := ValueToNormal(value);
      }
    }

    /** `set_from_normal`: nothing happens when `n` is the current normal;
        otherwise `n` is stored as given and the value follows it (so a second
        call with the same `n` is a no-op). */
    method SetFromNormal(n: Normal)
      requires Valid()
      modifies this`value, this`normal
      ensures Valid()
      ensures normal == n
      ensures old(normal) == n ==> value == old(value)
      ensures old(normal) != n ==> value == NormalToValue(n)
    {
      if normal != n {
        value := NormalToValue(n);
        normal := n;
      }
    }

    /** `value_to_normal`: the proportional position of `v` in [min, max];
        values beyond either end sit at that end. */
    function ValueToNormal(v: real): (n: Normal)
      requires Bounded()
      ensures min <= v <= max ==> n * range + min == v
      ensures v <= min ==> n == 0.0
      ensures max <= v ==> n == 1.0
    {
      ToNormal((v - min) * rangeRecip)
    }

    /** `normal_to_value`: the value at position `n`, except that a result
        within `SnapTolerance` of the default value is the default value. It
        lies in range, and unless it was snapped, `ValueToNormal` maps it back
        to `n`. */
    function NormalToValue(n: Normal): (v: real)
      requires Bounded()
      reads this
      ensures min <= defaultValue <= max ==> min <= v <= max
      ensures Dist(v, n * range + min) < SnapTolerance
      ensures v == defaultValue || ValueToNormal(v) == n
    {
      var raw := n * range + min;
      ScaleByUnit(n, range);
      assert (raw - min) * rangeRecip == n by {
        assert (n * range) * rangeRecip == n * (range * rangeRecip);
      }
      if raw > defaultValue - SnapTolerance && raw < defaultValue + SnapTolerance then
        defaultValue
      else
        raw
    }
  }

  /** Round trip from value to normal and back: every value in range comes
      back unchanged, except one within `SnapTolerance` of the default value,
      which comes back as the default value. */
  lemma FloatRoundTrip<ID>(p: FloatParam<ID>, v: real)
    requires p.Bounded() && p.min <= v <= p.max
    ensures p.NormalToValue(p.ValueToNormal(v))
            == if Dist(v, p.defaultValue) < SnapTolerance then p.defaultValue else v
  {
  }
}

=== FILE: h_slider.dfy ===
/** The interaction of a horizontal slider: the per-widget `State` that
    outlives each rebuilt widget, and the `HSlider` whose `on_event` turns
    mouse and keyboard events into state changes and `(id, normal)`
    messages. */
module HSliders {
  import opened Normals
  import opened FloatMath
  import opened ParamCommon

  /** `keyboard::ModifiersState`: which modifier keys are held. */
  datatype Modifiers = Modifiers(shift: bool, control: bool, alt: bool, logo: bool)

  /** `ModifiersState::default()`: no key held. */
  const NoModifiers: Modifiers := Modifiers(false, false, false, false)

  /** The modifier keys a new slider listens to: Ctrl only. */
  const DefaultModifierKeys: Modifiers := Modifiers(false, true, false, false)

  /** `DEFAULT_MODIFIER_SCALAR`: how much of the cursor's motion reaches the
      slider while the modifier keys are held. */
  const DefaultModifierScalar: real := 0.02

  /** A cursor position. */
  datatype Point = Point(x: real, y: real)

  /** What `mouse::Click` decides from the timing and place of the previous
      click; the decision itself is made by the windowing library. */
  datatype ClickKind = Single | Double | Triple

  /** `mouse::Click`: where a press happened and what kind of click it was. */
  datatype Click = Click(position: Point, kind: ClickKind)

  datatype Option<T> = None | Some(value: T)

  datatype MouseButton = Left | Right | Middle | OtherButton
  datatype ButtonState = Pressed | Released

  /** The events `on_event` tells apart; every other event is `OtherEvent`. */
  datatype Event =
    | MouseInput(button: MouseButton, state: ButtonState)
    | CursorMoved
    | KeyboardInput(modifiers: Modifiers)
    | OtherEvent

  /** What `on_change` is given: the parameter's id and its new normal. */
  datatype Message<ID> = Message(id: ID, normal: Normal)

  /** The message vector `on_event` pushes onto. */
  class Messages<ID> {
    var items: seq<Message<ID>>

    constructor ()
      ensures items == []
    {
      items := [];
    }

    method Push(m: Message<ID>)
      modifies this
      ensures items == old(items) + [m]
    {
      items := items + [m];
    }
  }

  /** The motion of a drag step as a share of the slider's width, scaled
      down by `scalar` when the modifier keys are held: spread over the
      whole width it is the cursor's motion, times `scalar` when scaled. */
  function Movement(dx: real, width: real, scaled: bool, scalar: real): (r: real)
    requires width != 0.0
    ensures r * width == (if scaled then dx * scalar else dx)
  {
    DivMul(dx, width);
    if scaled then
      assert (dx / width * scalar) * width == (dx / width * width) * scalar;
      dx / width * scalar
    else
      dx / width
  }

  /** The local state of a slider. */
  class State {
    var isDragging: bool
    var prevDragX: real
    /** The unclamped sum of all drag steps since the last release. */
    var continuousNormal: real
    var pressedModifiers: Modifiers
    var lastClick: Option<Click>

    /** `State::new`, given the parameter's current normal: not dragging,
        no modifier held, no click yet, and the accumulator at the normal. */
    constructor (normal: Normal)
      ensures !isDragging && prevDragX == 0.0 && continuousNormal == normal
      ensures pressedModifiers == NoModifiers && lastClick == None
    {
      isDragging := false;
      prevDragX := 0.0;
      continuousNormal := normal;
      pressedModifiers := NoModifiers;
      lastClick := None;
    }
  }

  class HSlider<ID> {
    const state: State
    const id: ID
    const normal: Normal
    const defaultNormal: Normal
    var modifierScalar: real
    var modifierKeys: Modifiers

    /** `HSlider::new`: the widget reads the parameter's id, normal and
        default normal, and starts with the default modifier keys and
        scalar. */
    constructor (state: State, param: ParamView<ID>)
      ensures this.state == state
      ensures id == param.id && normal == param.normal && defaultNormal == param.defaultNormal
      ensures modifierScalar == DefaultModifierScalar && modifierKeys == DefaultModifierKeys
    {
      this.state := state;
      id := param.id;
      normal := param.normal;
      defaultNormal := param.defaultNormal;
      modifierScalar := DefaultModifierScalar;
      modifierKeys := DefaultModifierKeys;
    }

    /** `modifier_keys`: choose the keys that scale drags down. */
    method SetModifierKeys(keys: Modifiers)
      modifies this`modifierKeys
      ensures modifierKeys == keys
    {
      modifierKeys := keys;
    }

    /** `modifier_scalar`: choose how much drags are scaled down by. */
    method SetModifierScalar(scalar: real)
      modifies this`modifierScalar
      ensures modifierScalar == scalar
    {
      modifierScalar := scalar;
    }

    /** `on_event`. The windowing library's part of it comes in as inputs:
        `inBounds` is whether the slider's bounds contain the cursor,
        `width` is the width of those bounds, `clickKind` is the kind
        `mouse::Click` gives a press, and `matches` is
        `ModifiersState::matches`.

        - A left press inside the bounds records the click. A single click
          starts a drag from the cursor; a double or triple click ends any
          drag and asks for the default normal. A press outside does nothing.
        - A left release, anywhere, ends the drag and resets the accumulator
          to the normal the widget was built with.
        - A cursor move during a drag over a slider of non-zero width adds
          the motion since the last step, as a share of the width and scaled
          down while the modifier keys are held, to the unclamped accumulator,
          and asks for the accumulator's clamped normal.
        - A keyboard event records the modifiers held.
        Nothing else changes, and at most one message is pushed. */
    method OnEvent(event: Event, cursor: Point, inBounds: bool, width: real,
                   clickKind: ClickKind, matches: (Modifiers, Modifiers) -> bool,
                   messages: Messages<ID>)
      modifies state, messages
      ensures event.MouseInput? && event.button == Left && event.state == Pressed && inBounds ==>
        && state.lastClick == Some(Click(cursor, clickKind))
        && state.pressedModifiers == old(state.pressedModifiers)
        && state.continuousNormal == old(state.continuousNormal)
        && (clickKind == Single ==>
              state.isDragging && state.prevDragX == cursor.x && messages.items == old(messages.items))
        && (clickKind != Single ==>
              && !state.isDragging && state.prevDragX == old(state.prevDragX)
              && messages.items == old(messages.items) + [Message(id, defaultNormal)])
      ensures event.MouseInput? && event.button == Left && event.state == Released ==>
        && !state.isDragging && state.continuousNormal == normal
        && state.prevDragX == old(state.prevDragX)
        && state.pressedModifiers == old(state.pressedModifiers)
        && state.lastClick == old(state.lastClick)
        && messages.items == old(messages.items)
      ensures event.CursorMoved? && old(state.isDragging) && width != 0.0 ==>
        var moved := old(state.continuousNormal)
          + Movement(cursor.x - old(state.prevDragX), width,
                     matches(old(state.pressedModifiers), modifierKeys), modifierScalar);
        && state.continuousNormal == moved
        && state.prevDragX == cursor.x
        && state.isDragging
        && state.pressedModifiers == old(state.pressedModifiers)
        && state.lastClick == old(state.lastClick)
        && messages.items == old(messages.items) + [Message(id, ToNormal(moved))]
      ensures event.KeyboardInput? ==>
        && state.pressedModifiers == event.modifiers
        && state.isDragging == old(state.isDragging)
        && state.prevDragX == old(state.prevDragX)
        && state.continuousNormal == old(state.continuousNormal)
        && state.lastClick == old(state.lastClick)
        && messages.items == old(messages.items)
      ensures !(|| (event.MouseInput? && event.button == Left && (event.state == Released || inBounds))
                || (event.CursorMoved? && old(state.isDragging) && width != 0.0)
                || event.KeyboardInput?) ==>
        && unchanged(state)
        && messages.items == old(messages.items)
    {
      match event {
        case MouseInput(button, buttonState) =>
          if button == Left {
            match buttonState {
              case Pressed =>
                if inBounds {
                  var click := Click(cursor, clickKind);
                  match click.kind {
                    case Single =>
                      state.isDragging := true;
                      state.prevDragX := cursor.x;
                    case _ =>
                      state.isDragging := false;
                      messages.Push(Message(id, defaultNormal));
                  }
                  state.lastClick := Some(click);
                }
              case Released =>
                state.isDragging := false;
                state.continuousNormal := normal;
            }
          }
        case CursorMoved =>
          if state.isDragging {
            if width != 0.0 {
              var movementX := (cursor.x - state.prevDragX) / width;
              if matches(state.pressedModifiers, modifierKeys) {
                movementX := movementX * modifierScalar;
              }
              assert movementX == Movement(cursor.x - state.prevDragX, width,
                                           matches(state.pressedModifiers, modifierKeys), modifierScalar);
              var n := state.continuousNormal + movementX;
              state.continuousNormal := n;
              state.prevDragX := cursor.x;
              messages.Push(Message(id, ToNormal(n)));
            }
          }
        case KeyboardInput(modifiers) =>
          state.pressedModifiers := modifiers;
        case OtherEvent =>
      }
    }

    /** A drag through the cursor positions `xs`, one `CursorMoved` event
        each at height `y`, with the modifiers unchanged throughout: the
        accumulator ends where `DragTo` says, the slider keeps dragging from
        the last position, and each step asks for the clamped accumulator
        after it, one message per step. */
    method DragThrough(xs: seq<real>, y: real, width: real,
                       matches: (Modifiers, Modifiers) -> bool, messages: Messages<ID>)
      requires state.isDragging && width != 0.0
      modifies state, messages
      ensures state.continuousNormal
              == DragTo(old(state.continuousNormal), old(state.prevDragX), xs, width,
                        matches(old(state.pressedModifiers), modifierKeys), modifierScalar)
      ensures state.isDragging
      ensures state.prevDragX == if xs == [] then old(state.prevDragX) else xs[|xs| - 1]
      ensures state.pressedModifiers == old(state.pressedModifiers)
      ensures state.lastClick == old(state.lastClick)
      ensures |messages.items| == |old(messages.items)| + |xs|
      ensures messages.items[..|old(messages.items)|] == old(messages.items)
      ensures forall k :: |old(messages.items)| <= k < |messages.items| ==>
        messages.items[k]
        == Message(id, ToNormal(DragTo(old(state.continuousNormal), old(state.prevDragX),
                                       xs[..k - |old(messages.items)| + 1], width,
                                       matches(old(state.pressedModifiers), modifierKeys), modifierScalar)))
    {
      ghost var cn0, prev0, sent0 := state.continuousNormal, state.prevDragX, messages.items;
      ghost var scaled := matches(state.pressedModifiers, modifierKeys);
      ghost var keys0, click0 := state.pressedModifiers, state.lastClick;
      var i := 0;
      while i < |xs|
        invariant 0 <= i <= |xs|
        invariant state.isDragging
        invariant state.continuousNormal == DragTo(cn0, prev0, xs[..i], width, scaled, modifierScalar)
        invariant state.prevDragX == if i == 0 then prev0 else xs[i - 1]
        invariant state.pressedModifiers == keys0 && state.lastClick == click0
        invariant |messages.items| == |sent0| + i
        invariant messages.items[..|sent0|] == sent0
        invariant forall k :: |sent0| <= k < |messages.items| ==>
          messages.items[k]
          == Message(id, ToNormal(DragTo(cn0, prev0, xs[..k - |sent0| + 1], width, scaled, modifierScalar)))
      {
        DragStep(cn0, prev0, xs, i, width, scaled, modifierScalar);
        OnEvent(CursorMoved, Point(xs[i], y), true, width, Single, matches, messages);
        i := i + 1;
      }
      assert xs[..i] == xs;
    }
  }

  /** Two drag steps move the slider as far as one step over both. */
  lemma MovementAdds(a: real, b: real, width: real, scaled: bool, scalar: real)
    requires width != 0.0
    ensures Movement(a, width, scaled, scalar) + Movement(b, width, scaled, scalar)
            == Movement(a + b, width, scaled, scalar)
  {
    QuotientAdd(a, b, width);
    if scaled {
      assert a / width * scalar + b / width * scalar == (a / width + b / width) * scalar;
    }
  }

  /** The accumulator after a drag through the cursor positions `xs`, one
      `CursorMoved` event each, starting from the accumulator `cn` and the
      previous position `prev`, with the modifiers unchanged throughout.
      Because every step is measured from the previous cursor position and
      the accumulator is never clamped, a drag adds up to its net motion:
      the accumulator depends only on where the drag started and where the
      cursor is now, not on the path in between. */
  function DragTo(cn: real, prev: real, xs: seq<real>, width: real, scaled: bool, scalar: real): (r: real)
    requires width != 0.0
    ensures xs == [] ==> r == cn
    ensures xs != [] ==> r == cn + Movement(xs[|xs| - 1] - prev, width, scaled, scalar)
    decreases |xs|
  {
    if xs == [] then cn
    else
      var next := cn + Movement(xs[0] - prev, width, scaled, scalar);
      assert 1 < |xs| ==> next + Movement(xs[|xs| - 1] - xs[0], width, scaled, scalar)
                          == cn + Movement(xs[|xs| - 1] - prev, width, scaled, scalar) by {
        if 1 < |xs| {
          assert xs[1..][|xs[1..]| - 1] == xs[|xs| - 1];
          MovementAdds(xs[0] - prev, xs[|xs| - 1] - xs[0], width, scaled, scalar);
        }
      }
      DragTo(next, xs[0], xs[1..], width, scaled, scalar)
  }

  /** One more cursor position adds one more step to the drag, measured
      from the position before it. */
  lemma DragStep(cn: real, prev: real, xs: seq<real>, i: nat, width: real, scaled: bool, scalar: real)
    requires width != 0.0 && i < |xs|
    ensures DragTo(cn, prev, xs[..i + 1], width, scaled, scalar)
            == DragTo(cn, prev, xs[..i], width, scaled, scalar)
               + Movement(xs[i] - (if i == 0 then prev else xs[i - 1]), width, scaled, scalar)
  {
    assert xs[..i + 1][i] == xs[i];
    if 0 < i {
      assert xs[..i][i - 1] == xs[i - 1];
      MovementAdds(xs[i - 1] - prev, xs[i] - xs[i - 1], width, scaled, scalar);
    }
  }

  /** Winding back from beyond the left end: once a drag without modifiers
      has pushed the accumulator below 0, the slider stays at 0 until the
      cursor comes back past the very point where the accumulator crossed 0
      (`prev - cn * width`), and moves again as soon as it does. */
  lemma DragRecoversAtCrossing(cn: real, prev: real, xs: seq<real>, width: real, scalar: real)
    requires 0.0 < width && xs != []
    ensures ToNormal(DragTo(cn, prev, xs, width, false, scalar)) == 0.0
            <==> xs[|xs| - 1] <= prev - cn * width
  {
    var d := xs[|xs| - 1] - prev;
    assert DragTo(cn, prev, xs, width, false, scalar) == cn + d / width;
    QuotientAtMost(d, -cn, width);
    assert -cn * width == -(cn * width);
  }

  /** Overshooting the left end and winding back, through the widget itself:
      a slider at 0.2, 100 wide, is grabbed at 50 and dragged to 0, which
      asks for 0 while the accumulator sits at -0.3; back at 20 it still
      asks for 0, and at 40 it asks for 0.1. Releasing resets the
      accumulator to the widget's normal. */
  method WindBackExample() returns (sent: seq<Message<int>>, state: State)
    ensures sent == [Message(7, 0.0), Message(7, 0.0), Message(7, 0.1)]
    ensures !state.isDragging && state.continuousNormal == 0.2
  {
    state := new State(0.2);
    var slider := new HSlider<int>(state, ParamView(7, 0.2, 0.5));
    var messages := new Messages<int>();
    var noKeys := (held: Modifiers, keys: Modifiers) => held == keys;
    var press := MouseInput(Left, Pressed);
    slider.OnEvent(press, Point(50.0, 5.0), true, 100.0, Single, noKeys, messages);
    slider.OnEvent(CursorMoved, Point(0.0, 5.0), true, 100.0, Single, noKeys, messages);
    assert state.continuousNormal == -0.3;
    slider.OnEvent(CursorMoved, Point(20.0, 5.0), true, 100.0, Single, noKeys, messages);
    slider.OnEvent(CursorMoved, Point(40.0, 5.0), true, 100.0, Single, noKeys, messages);
    slider.OnEvent(MouseInput(Left, Released), Point(40.0, 5.0), true, 100.0, Single, noKeys, messages);
    sent := messages.items;
  }

  /** A double click inside the slider asks for the default normal and does
      not start a drag, so the cursor moves that follow send nothing. */
  method DoubleClickExample() returns (sent: seq<Message<int>>, dragging: bool)
    ensures sent == [Message(3, 0.5)] && !dragging
  {
    var state := new State(0.9);
    var slider := new HSlider<int>(state, ParamView(3, 0.9, 0.5));
    var messages := new Messages<int>();
    var noKeys := (held: Modifiers, keys: Modifiers) => held == keys;
    slider.OnEvent(MouseInput(Left, Pressed), Point(10.0, 0.0), true, 80.0, Double, noKeys, messages);
    slider.OnEvent(CursorMoved, Point(30.0, 0.0), true, 80.0, Double, noKeys, messages);
    sent := messages.items;
    dragging := state.isDragging;
  }
}

=== FILE: int_param.dfy ===
/** `IntParam`: a discrete linear range of integer values. */
module IntParams {
  import opened Normals
  import opened FloatMath
  import opened ParamCommon

  class IntParam<ID> {
    const id: ID
    var value: int
    var defaultValue: int
    var normal: Normal
    var defaultNormal: Normal
    const min: int
    const max: int
    const range: real
    const rangeRecip: real

    /** The configuration `new` sets up: a non-empty range, its width as a
        float and the reciprocal of that width. */
    predicate Bounded()
    {
      min < max && range == (max - min) as real && rangeRecip * range == 1.0
    }

    /** Object invariant: both values lie in range and both normals are the
        canonical normals of their integer values. */
    ghost predicate Valid()
      reads this
    {
      && Bounded()
      && min <= value <= max
      && min <= defaultValue <= max
      && normal == ValueToNormal(value)
      && defaultNormal == ValueToNormal(defaultValue)
    }

    /** The `Param` accessors `id`, `normal` and `default_normal`. A valid
        parameter shows the default value's normal and its value's normal,
        from which the value comes back unchanged. */
    function View(): (v: ParamView<ID>)
      reads this
      ensures v.id == id
      ensures Valid() ==> v.defaultNormal == ValueToNormal(defaultValue)
      ensures Valid() ==> v.normal == ValueToNormal(value) && NormalToValue(v.normal) == value
    {
      ParamView(id, normal, defaultNormal)
    }

    /** `IntParam::new`; it panics unless `max > min`. Out of range initial
        and default values are clamped. */
    constructor (id: ID, min: int, max: int, value: int, defaultValue: int)
      requires max > min
      ensures Valid()
      ensures this.id == id && this.min == min && this.max == max
      ensures this.value == ClampInt(value, min, max)
      ensures this.defaultValue == ClampInt(defaultValue, min, max)
    {
      this.id := id;
      this.value := value;
      this.defaultValue := defaultValue;
      this.normal := 0.0;
      this.defaultNormal := 0.0;
      this.min := min;
      this.max := max;
      this.range := (max - min) as real;
      this.rangeRecip := 1.0 / (max - min) as real;
      new;
      this.value := ClampInt(value, min, max);
      this.defaultValue := ClampInt(defaultValue, min, max);
      this.normal := ValueToNormal(this.value);
      this.defaultNormal := ValueToNormal(this.defaultValue);
    }

    /** `set_from_value`: nothing happens when `v` is the current value;
        otherwise the value becomes `v` clamped and the normal follows it. */
    method SetFromValue(v: int)
      requires Valid()
      modifies this`value, this`normal
      ensures Valid()
      ensures old(value) == v ==> value == old(value) && normal == old(normal)
      ensures old(value) != v ==> value == ClampInt(v, min, max)
    {
      if value != v {
        value := ClampInt(v, min, max);
        normal := ValueToNormal(value);
      }
    }

    /** Calling `set_from_normal(n)` in this state would change nothing. */
    ghost predicate SettledAt(n: Normal)
      requires Bounded()
      reads this
    {
      normal == n || value == ClampInt(NormalToValue(n), min, max)
    }

    /** `set_from_normal`: nothing happens when `n` is the current normal;
        otherwise the value becomes `n` rounded to the nearest step, and the
        stored normal is that step's canonical normal, not `n`. Calling it
        again with the same `n` changes nothing. */
    method SetFromNormal(n: Normal)
      requires Valid()
      modifies this`value, this`normal
      ensures Valid()
      ensures old(normal) == n ==> value == old(value) && normal == old(normal)
      ensures old(normal) != n ==> value == ClampInt(NormalToValue(n), min, max)
      ensures SettledAt(n)
    {
      if normal != n {
        value := ClampInt(NormalToValue(n), min, max);
        normal := ValueToNormal(value);
      }
    }

    /** `value_to_normal`: the proportional position of `v` in [min, max];
        values beyond either end sit at that end. */
    function ValueToNormal(v: int): (n: Normal)
      requires Bounded()
      ensures min <= v <= max ==> n * range == (v - min) as real
      ensures v <= min ==> n == 0.0
      ensures max <= v ==> n == 1.0
    {
      ToNormal((v - min) as real * rangeRecip)
    }

    /** `normal_to_value`: the integer nearest to the value at position `n`
        (half-way cases away from zero, as `f32::round`). It always lies in
        range, so the clamp in `set_from_normal` never changes it. */
    function NormalToValue(n: Normal): (v: int)
      requires Bounded()
      ensures min <= v <= max
      ensures Dist(v as real, n * range + min as real) <= 0.5
    {
      ScaleByUnit(n, range);
      Round(n * range) + min
    }
  }

  /** Every integer in range survives the trip to its normal and back. */
  lemma IntRoundTrip<ID>(p: IntParam<ID>, v: int)
    requires p.Bounded() && p.min <= v <= p.max
    ensures p.NormalToValue(p.ValueToNormal(v)) == v
  {
  }

  /** Quantisation: two normals that round to the same step end up with the
      same stored normal, the canonical normal of that step. */
  lemma IntCanonicalNormal<ID>(p: IntParam<ID>, n: Normal)
    requires p.Bounded()
    ensures p.ValueToNormal(p.NormalToValue(p.ValueToNormal(p.NormalToValue(n))))
            == p.ValueToNormal(p.NormalToValue(n))
  {
    IntRoundTrip(p, p.NormalToValue(n));
  }

  /** A normal that lands exactly half-way between two steps takes the
      upper one, since `f32::round` sends halves away from zero and the
      scaled normal is never negative: in a parameter over 0..4, the normal
      0.375 sits at 1.5 steps and gives the value 2. */
  lemma IntTieRoundsUp<ID>(p: IntParam<ID>, n: Normal, k: nat)
    requires p.Bounded() && n * p.range == k as real + 0.5
    ensures p.NormalToValue(n) == p.min + k + 1
  {
  }

  /** The example of `set_from_normal`'s documentation: in a parameter over
      0..2 holding 1, setting the normal 0.8 gives the value 2 and the
      normal 1.0. */
  method IntSetFromNormalExample() returns (value: int, normal: Normal)
    ensures value == 2 && normal == 1.0
  {
    var p := new IntParam<int>(0, 0, 2, 1, 1);
    p.SetFromNormal(0.8);
    value, normal := p.value, p.normal;
  }

  /** `set_from_normal` is idempotent: a second call with the same normal
      leaves the value and the normal where the first call put them. */
  method SetFromNormalTwice<ID>(p: IntParam<ID>, n: Normal) returns (once: (int, Normal), twice: (int, Normal))
    requires p.Valid()
    modifies p
    ensures once == twice
  {
    p.SetFromNormal(n);
    once := (p.value, p.normal);
    p.SetFromNormal(n);
    twice := (p.value, p.normal);
  }
}

=== FILE: log_db_param.dfy ===
/** `LogDBParam`: a continuous range of decibel values on a square-root
    curve, with a stationary point at 0 dB placed at a chosen normal. */
module LogDBParams {
  import opened Normals
  import opened FloatMath
  import opened ParamCommon

  class LogDBParam<ID> {
    const id: ID
    var value: real
    var defaultValue: real
    var normal: Normal
    var defaultNormal: Normal
    const zeroNormal: Normal
    const min: real
    const max: real
    const range: real
    const rangeRecip: real
    /** The float library the mapping's `sqrt` comes from. */
    const math: MathLib

    /** The configuration `new` sets up: a non-empty range that contains
        0 dB, its width and the reciprocal of its width. */
    ghost predicate Bounded()
    {
      && min < max && 0.0 <= max && min <= 0.0
      && range == max - min && rangeRecip * range == 1.0
      && SqrtLawful(math)
    }

    /** Object invariant: both values lie in range, the default normal is the
        default value's, and value and normal agree in the direction of
        whichever of the two was set last. */
    ghost predicate Valid()
      reads this
    {
      && Bounded()
      && min <= value <= max
      && min <= defaultValue <= max
      && defaultNormal == ValueToNormal(defaultValue)
      && (normal == ValueToNormal(value) || value == NormalToValue(normal))
    }

    /** The `Param` accessors `id`, `normal` and `default_normal`. A valid
        parameter shows the default value's normal, and a normal that
        either is the value's or leads to the value. */
    function View(): (v: ParamView<ID>)
      reads this
      ensures v.id == id
      ensures Valid() ==> v.defaultNormal == ValueToNormal(defaultValue)
      ensures Valid() ==> v.normal == ValueToNormal(value) || value == NormalToValue(v.normal)
    {
      ParamView(id, normal, defaultNormal)
    }

    /** `LogDBParam::new`; it panics unless `max > min`, `max >= 0` and
        `min <= 0`. Out of range initial and default values are clamped. */
    constructor (id: ID, min: real, max: real, value: real, defaultValue: real,
                 zeroNormal: Normal, math: MathLib)
      requires max > min && max >= 0.0 && min <= 0.0
      requires SqrtLawful(math)
      ensures Valid()
      ensures this.id == id && this.min == min && this.max == max
      ensures this.zeroNormal == zeroNormal && this.math == math
      ensures this.value == Clamp(value, min, max)
      ensures this.defaultValue == Clamp(defaultValue, min, max)
      ensures normal == ValueToNormal(this.value)
      ensures defaultNormal == ValueToNormal(this.defaultValue)
    {
      this.id := id;
      this.value := value;
      this.defaultValue := defaultValue;
      this.normal := 0.0;
      this.defaultNormal := 0.0;
      this.zeroNormal := zeroNormal;
      this.min := min;
      this.max := max;
      this.range := max - min;
      this.rangeRecip := 1.0 / (max - min);
      this.math := math;
      new;
      this.value := Clamp(value, min, max);
      this.defaultValue := Clamp(defaultValue, min, max);
      this.normal := ValueToNormal(this.value);
      this.defaultNormal := ValueToNormal(this.defaultValue);
    }

    /** `set_from_value`: nothing happens when `v` is the current value;
        otherwise the value becomes `v` clamped and the normal follows it. */
    method SetFromValue(v: real)
      requires Valid()
      modifies this`value, this`normal
      ensures Valid()
      ensures old(value) == v ==> value == old(value) && normal == old(normal)
      ensures old(value) != v ==> value == Clamp(v, min, max) && normal == ValueToNormal(value)
    {
      if value != v {
        value := Clamp(v, min, max);
        normal := ValueToNormal(value);
      }
    }

    /** `set_from_normal`: nothing happens when `n` is the current normal;
        otherwise `n` is stored as given and the value follows it, without
        being clamped again (so a second call with the same `n` is a no-op). */
    method SetFromNormal(n: Normal)
      requires Valid()
      modifies this`value, this`normal
      ensures Valid()
      ensures normal == n
      ensures old(normal) == n ==> value == old(value)
      ensures old(normal) != n ==> value == NormalToValue(n)
    {
      if normal != n {
        value := NormalToValue(n);
        normal := n;
      }
    }

    /** `value_to_normal`: 0 dB sits at `zeroNormal`; negative values fall
        below it and positive values above it, along a square-root curve that
        reaches 0 at `min` and 1 at `max`. A negative value when `min` is 0
        maps to 0, a positive one when `max` is 0 maps to 1. */
    function ValueToNormal(v: real): (n: Normal)
      requires Bounded()
      ensures v == 0.0 ==> n == zeroNormal
      ensures v < 0.0 ==> n <= zeroNormal
      ensures 0.0 < v ==> zeroNormal <= n
      ensures min < v < 0.0 && 0.0 < zeroNormal ==> n < zeroNormal
      ensures 0.0 < v < max && zeroNormal < 1.0 ==> zeroNormal < n
      ensures v < 0.0 && 0.0 <= min ==> n == 0.0
      ensures 0.0 < v && max <= 0.0 ==> n == 1.0
      ensures v <= min < 0.0 ==> n == 0.0
      ensures 0.0 < max <= v ==> n == 1.0
    {
      if v == 0.0 then
        zeroNormal
      else if v < 0.0 then
        if min >= 0.0 then
          0.0
        else
          BelowZeroCurve(math, v, min, zeroNormal);
          ToNormal(BelowZeroNormal(math, v, min, zeroNormal))
      else
        if max <= 0.0 then
          1.0
        else
          AboveZeroCurve(math, v, max, zeroNormal);
          ToNormal(AboveZeroNormal(math, v, max, zeroNormal))
    }

    /** `normal_to_value`: the inverse curve. `zeroNormal` gives 0 dB, normals
        below it negative values down to `min` at 0, normals above it
        positive values up to `max` at 1; the result always lies in range. */
    function NormalToValue(n: Normal): (v: real)
      requires Bounded()
      ensures min <= v
      ensures v <= max
      ensures n == zeroNormal ==> v == 0.0
      ensures n < zeroNormal ==> v <= 0.0
      ensures zeroNormal < n ==> 0.0 <= v
      ensures n < zeroNormal && 0.0 <= min ==> v == min
      ensures zeroNormal < n && max <= 0.0 ==> v == max
      ensures n == 0.0 < zeroNormal ==> v == min
      ensures n == 1.0 > zeroNormal ==> v == max
    {
      if n == zeroNormal then
        0.0
      else if n < zeroNormal then
        if min >= 0.0 then
          min
        else
          BelowZeroInverse(n, zeroNormal, min);
          BelowZeroValue(n, zeroNormal, min)
      else
        if zeroNormal == 1.0 || max <= 0.0 then
          max
        else
          AboveZeroInverse(n, zeroNormal, max);
          AboveZeroValue(n, zeroNormal, max)
    }
  }

  /** `value_to_normal` below 0 dB: the value's share of `min`, through
      `1 - sqrt`, scaled into [0, z]. */
  function BelowZeroNormal(m: MathLib, v: real, min: real, z: real): real
    requires min != 0.0
  {
    var negNormal := v / min;
    var logNormal := 1.0 - m.sqrt(negNormal);
    logNormal * z
  }

  /** `value_to_normal` above 0 dB: the square root of the value's share of
      `max`, scaled into [z, 1]. */
  function AboveZeroNormal(m: MathLib, v: real, max: real, z: real): real
    requires max != 0.0
  {
    var posNormal := v / max;
    var logNormal := m.sqrt(posNormal);
    logNormal * (1.0 - z) + z
  }

  /** `normal_to_value` below the zero normal: the inverse of
      `BelowZeroNormal`, with the square root undone by squaring. */
  function BelowZeroValue(n: real, z: real, min: real): real
    requires z != 0.0
  {
    var negNormal := n / z;
    var logNormal := 1.0 - (1.0 - negNormal) * (1.0 - negNormal);
    (1.0 - logNormal) * min
  }

  /** `normal_to_value` above the zero normal: the inverse of
      `AboveZeroNormal`. */
  function AboveZeroValue(n: real, z: real, max: real): real
    requires z != 1.0
  {
    var posNormal := (n - z) / (1.0 - z);
    var logNormal := posNormal * posNormal;
    logNormal * max
  }

  /** Below 0 dB, `(1 - sqrt(v / min)) * z` never exceeds `z`, is strictly
      below it and non-negative inside (min, 0), and is at most 0 from `min`
      downwards. */
  lemma BelowZeroCurve(m: MathLib, v: real, min: real, z: real)
    requires SqrtLawful(m) && v < 0.0 && min < 0.0 && 0.0 <= z <= 1.0
    ensures BelowZeroNormal(m, v, min, z) <= z
    ensures min < v && 0.0 < z ==> 0.0 <= BelowZeroNormal(m, v, min, z) < z
    ensures v <= min ==> BelowZeroNormal(m, v, min, z) <= 0.0
  {
    var q := v / min;
    QuotientNegate(v, min);
    QuotientPositive(-v, -min);
    SqrtAgainstOne(m, q);
    var logNormal := 1.0 - m.sqrt(q);
    if 0.0 <= logNormal {
      ScaleByUnit(logNormal, z);
    } else {
      ScaleByUnit(z, logNormal);
      assert z * logNormal == logNormal * z;
    }
    if v <= min {
      ScaleByUnit(z, logNormal);
      assert z * logNormal == logNormal * z;
    }
  }

  /** Above 0 dB, `sqrt(v / max) * (1 - z) + z` is at least `z`, strictly
      between `z` and 1 inside (0, max) when `z < 1`, and at least 1 from
      `max` upwards. */
  lemma AboveZeroCurve(m: MathLib, v: real, max: real, z: real)
    requires SqrtLawful(m) && 0.0 < v && 0.0 < max && 0.0 <= z <= 1.0
    ensures z <= AboveZeroNormal(m, v, max, z)
    ensures v < max && z < 1.0 ==> z < AboveZeroNormal(m, v, max, z) <= 1.0
    ensures max <= v ==> 1.0 <= AboveZeroNormal(m, v, max, z)
  {
    var p := v / max;
    QuotientPositive(v, max);
    SqrtAgainstOne(m, p);
    var logNormal := m.sqrt(p);
    MulNonneg(logNormal, 1.0 - z);
    if logNormal <= 1.0 {
      ScaleByUnit(logNormal, 1.0 - z);
    } else {
      ScaleAboveOne(logNormal, 1.0 - z);
    }
    if max <= v {
      ScaleAboveOne(logNormal, 1.0 - z);
    }
  }

  /** Below the zero normal, `normal_to_value`'s curve stays within
      [min, 0), and gives `min` at normal 0. */
  lemma BelowZeroInverse(n: real, z: real, min: real)
    requires 0.0 <= n < z && min < 0.0
    ensures min <= BelowZeroValue(n, z, min) < 0.0
    ensures n == 0.0 ==> BelowZeroValue(n, z, min) == min
  {
    var t := 1.0 - n / z;
    assert 0.0 < t <= 1.0 && (n == 0.0 ==> t == 1.0) by {
      if n != 0.0 {
        QuotientPositive(n, z);
      }
    }
    assert BelowZeroValue(n, z, min) == (t * t) * min;
    ScaleByUnit(t, t);
    ScaleByUnit(t * t, min);
  }

  /** Above the zero normal, `normal_to_value`'s curve stays within (0, max],
      and gives `max` at normal 1. */
  lemma AboveZeroInverse(n: real, z: real, max: real)
    requires z < n <= 1.0 && 0.0 < max
    ensures 0.0 < AboveZeroValue(n, z, max) <= max
    ensures n == 1.0 ==> AboveZeroValue(n, z, max) == max
  {
    var posNormal := (n - z) / (1.0 - z);
    var logNormal := posNormal * posNormal;
    QuotientPositive(n - z, 1.0 - z);
    ScaleByUnit(posNormal, posNormal);
    ScaleByUnit(logNormal, max);
  }

  /** Below 0 dB, `BelowZeroValue` undoes `BelowZeroNormal`. */
  lemma BelowZeroRoundTrip(m: MathLib, v: real, min: real, z: real)
    requires SqrtLawful(m) && min <= v < 0.0 && 0.0 < z <= 1.0
    ensures 0.0 <= BelowZeroNormal(m, v, min, z) < z
    ensures BelowZeroValue(BelowZeroNormal(m, v, min, z), z, min) == v
  {
    var q := v / min;
    var s := m.sqrt(q);
    QuotientNegate(v, min);
    QuotientPositive(-v, -min);
    SqrtAgainstOne(m, q);
    var logNormal := 1.0 - s;
    ScaleByUnit(logNormal, z);
    var n := logNormal * z;
    assert BelowZeroNormal(m, v, min, z) == n;
    Cancel(logNormal, z);
    assert n / z == logNormal;
    assert 1.0 - logNormal == s;
    DivMul(v, min);
    assert s * s * min == v;
  }

  /** Above 0 dB, `AboveZeroValue` undoes `AboveZeroNormal`. */
  lemma AboveZeroRoundTrip(m: MathLib, v: real, max: real, z: real)
    requires SqrtLawful(m) && 0.0 < v <= max && 0.0 <= z < 1.0
    ensures z < AboveZeroNormal(m, v, max, z) <= 1.0
    ensures AboveZeroValue(AboveZeroNormal(m, v, max, z), z, max) == v
  {
    var q := v / max;
    var s := m.sqrt(q);
    QuotientPositive(v, max);
    SqrtAgainstOne(m, q);
    ScaleByUnit(s, 1.0 - z);
    var n := s * (1.0 - z) + z;
    assert AboveZeroNormal(m, v, max, z) == n;
    Cancel(s, 1.0 - z);
    assert (n - z) / (1.0 - z) == s;
    DivMul(v, max);
    assert s * s * max == v;
  }

  /** Below the zero normal, `BelowZeroNormal` undoes `BelowZeroValue`. */
  lemma BelowZeroNormalRoundTrip(m: MathLib, n: real, z: real, min: real)
    requires SqrtLawful(m) && 0.0 <= n < z && min < 0.0
    ensures BelowZeroNormal(m, BelowZeroValue(n, z, min), min, z) == n
  {
    var t := 1.0 - n / z;
    if n == 0.0 {
      assert n / z == 0.0;
    } else {
      QuotientPositive(n, z);
    }
    var v := t * t * min;
    assert BelowZeroValue(n, z, min) == v;
    Cancel(t * t, min);
    assert v / min == t * t;
    SqrtOfSquare(m, t);
    DivMul(n, z);
    assert (1.0 - t) * z == n;
  }

  /** Above the zero normal, `AboveZeroNormal` undoes `AboveZeroValue`. */
  lemma AboveZeroNormalRoundTrip(m: MathLib, n: real, z: real, max: real)
    requires SqrtLawful(m) && z < n <= 1.0 && 0.0 < max
    ensures AboveZeroNormal(m, AboveZeroValue(n, z, max), max, z) == n
  {
    var r := (n - z) / (1.0 - z);
    QuotientPositive(n - z, 1.0 - z);
    var v := r * r * max;
    assert AboveZeroValue(n, z, max) == v;
    Cancel(r * r, max);
    assert v / max == r * r;
    SqrtOfSquare(m, r);
    DivMul(n - z, 1.0 - z);
    assert r * (1.0 - z) + z == n;
  }

  /** Round trip from value to normal and back. Every value in range comes
      back unchanged, as long as the zero normal leaves room for its sign: a
      negative value needs a zero normal above 0, a positive one a zero
      normal below 1 (otherwise it is squeezed onto the zero normal and comes
      back as 0 dB). */
  lemma LogDBRoundTrip<ID>(p: LogDBParam<ID>, v: real)
    requires p.Bounded() && p.min <= v <= p.max
    requires v < 0.0 ==> 0.0 < p.zeroNormal
    requires 0.0 < v ==> p.zeroNormal < 1.0
    ensures p.NormalToValue(p.ValueToNormal(v)) == v
  {
    if v < 0.0 {
      BelowZeroRoundTrip(p.math, v, p.min, p.zeroNormal);
    } else if 0.0 < v {
      AboveZeroRoundTrip(p.math, v, p.max, p.zeroNormal);
    }
  }

  /** Why `LogDBRoundTrip` needs room on the value's side: with the zero
      normal at 0 every cut is squeezed onto normal 0, which is the zero
      normal, and comes back as 0 dB; with it at 1 every boost is squeezed
      onto normal 1 and comes back as 0 dB too. */
  lemma LogDBSqueezedSide<ID>(p: LogDBParam<ID>, v: real)
    requires p.Bounded() && p.min <= v <= p.max
    requires (v < 0.0 && p.zeroNormal == 0.0) || (0.0 < v && p.zeroNormal == 1.0)
    ensures p.ValueToNormal(v) == p.zeroNormal
    ensures p.NormalToValue(p.ValueToNormal(v)) == 0.0
  {
    if v < 0.0 {
      assert p.ValueToNormal(v) == ToNormal((1.0 - p.math.sqrt(v / p.min)) * 0.0);
    } else {
      assert p.ValueToNormal(v) == ToNormal(p.math.sqrt(v / p.max) * 0.0 + 1.0);
    }
  }

  /** Why `LogDBNormalRoundTrip` needs the range to reach the normal's side:
      with `min == 0` every normal below the zero normal gives `min`, 0 dB,
      whose normal is the zero normal; with `max == 0` every normal above it
      gives `max`, 0 dB, likewise. */
  lemma LogDBFlatSide<ID>(p: LogDBParam<ID>, n: Normal)
    requires p.Bounded()
    requires (n < p.zeroNormal && p.min == 0.0) || (p.zeroNormal < n && p.max == 0.0)
    ensures p.NormalToValue(n) == 0.0
    ensures p.ValueToNormal(p.NormalToValue(n)) == p.zeroNormal
  {
  }

  /** Round trip from normal to value and back. Every normal comes back
      unchanged, as long as the range reaches out on its side of the zero
      normal: a normal below it needs `min < 0`, one above it `max > 0`. */
  lemma LogDBNormalRoundTrip<ID>(p: LogDBParam<ID>, n: Normal)
    requires p.Bounded()
    requires n < p.zeroNormal ==> p.min < 0.0
    requires p.zeroNormal < n ==> 0.0 < p.max
    ensures p.ValueToNormal(p.NormalToValue(n)) == n
  {
    if n < p.zeroNormal {
      BelowZeroInverse(n, p.zeroNormal, p.min);
      BelowZeroNormalRoundTrip(p.math, n, p.zeroNormal, p.min);
    } else if p.zeroNormal < n {
      AboveZeroInverse(n, p.zeroNormal, p.max);
      AboveZeroNormalRoundTrip(p.math, n, p.zeroNormal, p.max);
    }
  }

  /** Below 0 dB, a larger value is not mapped below a smaller one. */
  lemma BelowZeroMonotone(m: MathLib, a: real, b: real, min: real, z: real)
    requires SqrtLawful(m) && a <= b < 0.0 && min < 0.0 && 0.0 <= z
    ensures BelowZeroNormal(m, a, min, z) <= BelowZeroNormal(m, b, min, z)
  {
    QuotientNegate(a, min);
    QuotientNegate(b, min);
    QuotientMonotone(-b, -a, -min);
    QuotientPositive(-b, -min);
    ScaleMonotone(1.0 - m.sqrt(a / min), 1.0 - m.sqrt(b / min), z);
  }

  /** Above 0 dB, a larger value is not mapped below a smaller one. */
  lemma AboveZeroMonotone(m: MathLib, a: real, b: real, max: real, z: real)
    requires SqrtLawful(m) && 0.0 < a <= b && 0.0 < max && z <= 1.0
    ensures AboveZeroNormal(m, a, max, z) <= AboveZeroNormal(m, b, max, z)
  {
    QuotientMonotone(a, b, max);
    QuotientPositive(a, max);
    ScaleMonotone(m.sqrt(a / max), m.sqrt(b / max), 1.0 - z);
  }

  /** The boost curve is the square of the normal's share of the way from
      the zero normal to 1, times `max`. */
  lemma AboveZeroValueSquare(n: real, z: real, max: real, a: real)
    requires z != 1.0 && a == (n - z) / (1.0 - z)
    ensures AboveZeroValue(n, z, max) == (a * a) * max
  {
  }

  /** The cut curve is the square of the normal's share of the way from 0
      to the zero normal, counted from the zero normal, times `min`. */
  lemma BelowZeroValueSquare(n: real, z: real, min: real, t: real)
    requires z != 0.0 && t == 1.0 - n / z
    ensures BelowZeroValue(n, z, min) == (t * t) * min
  {
  }

  /** Above the zero normal, a slider step of fixed length `d` changes the
      value the more, the further from 0 dB it starts. */
  lemma AboveZeroStepsGrow(n1: real, n2: real, d: real, z: real, max: real)
    requires z <= n1 < n2 && 0.0 < d && z < 1.0 && 0.0 < max
    ensures AboveZeroValue(n1 + d, z, max) - AboveZeroValue(n1, z, max)
            < AboveZeroValue(n2 + d, z, max) - AboveZeroValue(n2, z, max)
  {
    var w := 1.0 - z;
    var a1, a2, e := (n1 - z) / w, (n2 - z) / w, d / w;
    QuotientAdd(n1 - z, d, w);
    QuotientAdd(n2 - z, d, w);
    QuotientSub(n2 - z, n1 - z, w);
    QuotientPositive(n2 - n1, w);
    QuotientPositive(d, w);
    AboveZeroValueSquare(n1, z, max, a1);
    AboveZeroValueSquare(n2, z, max, a2);
    assert n1 + d - z == (n1 - z) + d && n2 + d - z == (n2 - z) + d;
    AboveZeroValueSquare(n1 + d, z, max, a1 + e);
    AboveZeroValueSquare(n2 + d, z, max, a2 + e);
    SquareStepGrows(a1, a2, e, max,
                    AboveZeroValue(n1, z, max), AboveZeroValue(n1 + d, z, max),
                    AboveZeroValue(n2, z, max), AboveZeroValue(n2 + d, z, max));
  }

  /** Below the zero normal, a slider step of fixed length `d` changes the
      value the more, the further from 0 dB it lies. */
  lemma BelowZeroStepsGrow(n1: real, n2: real, d: real, z: real, min: real)
    requires 0.0 < d <= n1 < n2 <= z && min < 0.0
    ensures BelowZeroValue(n2, z, min) - BelowZeroValue(n2 - d, z, min)
            < BelowZeroValue(n1, z, min) - BelowZeroValue(n1 - d, z, min)
  {
    var t1, t2, e := 1.0 - n1 / z, 1.0 - n2 / z, d / z;
    QuotientSub(n1, d, z);
    QuotientSub(n2, d, z);
    QuotientSub(n2, n1, z);
    QuotientPositive(n2 - n1, z);
    QuotientPositive(d, z);
    BelowZeroValueSquare(n1, z, min, t1);
    BelowZeroValueSquare(n2, z, min, t2);
    BelowZeroValueSquare(n1 - d, z, min, t1 + e);
    BelowZeroValueSquare(n2 - d, z, min, t2 + e);
    var u1, u1e := BelowZeroValue(n1, z, min), BelowZeroValue(n1 - d, z, min);
    var u2, u2e := BelowZeroValue(n2, z, min), BelowZeroValue(n2 - d, z, min);
    ScaleNegate(t1 * t1, min);
    ScaleNegate(t2 * t2, min);
    ScaleNegate((t1 + e) * (t1 + e), min);
    ScaleNegate((t2 + e) * (t2 + e), min);
    SquareStepGrows(t2, t1, e, -min, -u2, -u2e, -u1, -u1e);
  }

  /** At and above the zero normal, `normal_to_value` is the boost curve. */
  lemma BoostSide<ID>(p: LogDBParam<ID>, n: Normal)
    requires p.Bounded() && p.zeroNormal <= n && p.zeroNormal < 1.0 && 0.0 < p.max
    ensures p.NormalToValue(n) == AboveZeroValue(n, p.zeroNormal, p.max)
  {
    var z := p.zeroNormal;
    if n == z {
      var posNormal := (n - z) / (1.0 - z);
      assert posNormal == 0.0;
      assert AboveZeroValue(n, z, p.max) == (posNormal * posNormal) * p.max;
    } else {
      assert !(z == 1.0 || p.max <= 0.0);
    }
  }

  /** At and below a positive zero normal, `normal_to_value` is the cut
      curve. */
  lemma CutSide<ID>(p: LogDBParam<ID>, n: Normal)
    requires p.Bounded() && n <= p.zeroNormal && 0.0 < p.zeroNormal && p.min < 0.0
    ensures p.NormalToValue(n) == BelowZeroValue(n, p.zeroNormal, p.min)
  {
    var z := p.zeroNormal;
    if n == z {
      var negNormal := n / z;
      Cancel(1.0, z);
      assert negNormal == 1.0;
      assert BelowZeroValue(n, z, p.min) == (1.0 - (1.0 - (1.0 - negNormal) * (1.0 - negNormal))) * p.min;
    }
  }

  /** Equal slider steps move the value less near 0 dB than far from it, on
      the boost side: the higher the step, the more decibels it covers. */
  lemma LogDBBoostStepsGrow<ID>(p: LogDBParam<ID>, n1: Normal, n2: Normal, d: real)
    requires p.Bounded() && 0.0 < p.max && p.zeroNormal < 1.0
    requires p.zeroNormal <= n1 < n2 && 0.0 < d && n2 + d <= 1.0
    ensures p.NormalToValue(n1 + d) - p.NormalToValue(n1) < p.NormalToValue(n2 + d) - p.NormalToValue(n2)
  {
    BoostSide(p, n1);
    BoostSide(p, n2);
    BoostSide(p, n1 + d);
    BoostSide(p, n2 + d);
    AboveZeroStepsGrow(n1, n2, d, p.zeroNormal, p.max);
  }

  /** The same on the cut side: the lower the step, the more decibels it
      covers. */
  lemma LogDBCutStepsGrow<ID>(p: LogDBParam<ID>, n1: Normal, n2: Normal, d: real)
    requires p.Bounded() && p.min < 0.0
    requires 0.0 < d <= n1 < n2 <= p.zeroNormal
    ensures p.NormalToValue(n2) - p.NormalToValue(n2 - d) < p.NormalToValue(n1) - p.NormalToValue(n1 - d)
  {
    CutSide(p, n1);
    CutSide(p, n2);
    CutSide(p, n1 - d);
    CutSide(p, n2 - d);
    BelowZeroStepsGrow(n1, n2, d, p.zeroNormal, p.min);
  }

  /** `value_to_normal` is strictly increasing over the range, wherever the
      zero normal leaves room for the signs involved; so markers placed at
      increasing dB values appear in order along the slider. */
  lemma LogDBMonotone<ID>(p: LogDBParam<ID>, a: real, b: real)
    requires p.Bounded() && p.min <= a < b <= p.max
    requires a < 0.0 ==> 0.0 < p.zeroNormal
    requires 0.0 < b ==> p.zeroNormal < 1.0
    ensures p.ValueToNormal(a) < p.ValueToNormal(b)
  {
    if b < 0.0 {
      BelowZeroMonotone(p.math, a, b, p.min, p.zeroNormal);
    } else if 0.0 < a {
      AboveZeroMonotone(p.math, a, b, p.max, p.zeroNormal);
    }
    assert p.ValueToNormal(a) <= p.ValueToNormal(b);
    if p.ValueToNormal(a) == p.ValueToNormal(b) {
      LogDBRoundTrip(p, a);
      LogDBRoundTrip(p, b);
    }
  }

  /** Markers placed at increasing values of the range appear in the same
      order along the slider, when the zero normal leaves room below it for
      every cut among them and above it for every boost. */
  lemma LogDBMarksInOrder<ID>(p: LogDBParam<ID>, vs: seq<real>)
    requires p.Bounded()
    requires forall i :: 0 <= i < |vs| ==> p.min <= vs[i] <= p.max
    requires forall i :: 0 <= i < |vs| && vs[i] < 0.0 ==> 0.0 < p.zeroNormal
    requires forall i :: 0 <= i < |vs| && 0.0 < vs[i] ==> p.zeroNormal < 1.0
    requires forall i :: 0 < i < |vs| ==> vs[i - 1] < vs[i]
    ensures forall i, j :: 0 <= i < j < |vs| ==> p.ValueToNormal(vs[i]) < p.ValueToNormal(vs[j])
  {
    StepsIncreasing(vs);
    forall i, j | 0 <= i < j < |vs|
      ensures p.ValueToNormal(vs[i]) < p.ValueToNormal(vs[j])
    {
      LogDBMonotone(p, vs[i], vs[j]);
    }
  }

  /** The demo's decibel slider: -12 dB to 12 dB with 0 dB in the middle.
      Its tick marks at -12, -6, -3, -1, 0, 1, 3, 6 and 12 dB appear in that
      order along the slider, the ends at 0 and 1 and 0 dB at the centre. */
  method LogDBDemo(math: MathLib) returns (marks: seq<Normal>)
    requires SqrtLawful(math)
    ensures |marks| == 9
    ensures marks[0] == 0.0 && marks[4] == 0.5 && marks[8] == 1.0
    ensures forall i, j :: 0 <= i < j < |marks| ==> marks[i] < marks[j]
  {
    var p := new LogDBParam<int>(0, -12.0, 12.0, 0.0, 0.0, 0.5, math);
    var dbs := [-12.0, -6.0, -3.0, -1.0, 0.0, 1.0, 3.0, 6.0, 12.0];
    LogDBMarksInOrder(p, dbs);
    marks := seq(|dbs|, i requires 0 <= i < |dbs| => p.ValueToNormal(dbs[i]));
  }
}

=== FILE: normal.dfy ===
/** The `Normal` type of the core: a dimensionless position in [0, 1] shared by
    every widget and every parameter. */
module Normals {

  /** A position in the closed interval [0, 1]. */
  type Normal = r: real | 0.0 <= r <= 1.0

  /** Distance between two reals. */
  function Dist(a: real, b: real): (d: real)
  {
    if a >= b then a - b else b - a
  }

  /** Conversion of a float into a `Normal` (`.into()`, `Normal::new`): out of
      range inputs are clamped silently to the end they overshoot, never
      rejected; inputs in range are kept. */
  function ToNormal(x: real): (n: Normal)
    ensures 0.0 <= x <= 1.0 ==> n == x
    ensures x < 0.0 ==> n == 0.0
    ensures 1.0 < x ==> n == 1.0
  {
    if x < 0.0 then 0.0 else if x > 1.0 then 1.0 else x
  }

  /** Clamping is the best a Normal can do: no Normal is closer to `x`. */
  lemma ToNormalIsNearest(x: real, m: Normal)
    ensures Dist(ToNormal(x), x) <= Dist(m, x)
  {
  }
}

=== FILE: octave_param.dfy ===
/** `OctaveParam`: a range of frequencies on a logarithmic scale, every
    octave of the 10-octave audio spectrum taking the same share of the
    slider. */
module OctaveParams {
  import opened Normals
  import opened FloatMath
  import opened ParamCommon

  /** The ends of the 10-octave spectrum, 20 Hz and 20480 Hz. */
  const SpectrumLow: real := 20.0
  const SpectrumHigh: real := 20480.0

  /** `octave_spectrum_to_normal`: one tenth of a normal per octave above
      20 Hz, clamped into [0, 1]. Exactly the frequencies up to 20 Hz sit at
      0 and exactly those from 20480 Hz up sit at 1. */
  function SpectrumToNormal(m: MathLib, freq: real): (n: Normal)
    ensures LogLawful(m) && 0.0 < freq ==> (n == 0.0 <==> freq <= SpectrumLow)
    ensures LogLawful(m) && 0.0 < freq ==> (n == 1.0 <==> SpectrumHigh <= freq)
  {
    ToNormal((m.log2(freq / 40.0) + 1.0) * 0.1)
  }

  /** `octave_normal_to_spectrum`: the frequency ten times the normal
      octaves above 20 Hz. It lies in the spectrum, at its ends for 0 and 1. */
  function NormalToSpectrum(m: MathLib, n: Normal): (f: real)
    ensures LogLawful(m) ==> SpectrumLow <= f <= SpectrumHigh
    ensures LogLawful(m) && n == 0.0 ==> f == SpectrumLow
    ensures LogLawful(m) && n == 1.0 ==> f == SpectrumHigh
  {
    var y := 10.0 * n - 1.0;
    assert LogLawful(m) ==> 0.5 <= m.pow2(y) <= 512.0 by {
      if LogLawful(m) {
        assert m.pow2(m.log2(0.5)) == 0.5 && m.pow2(m.log2(512.0)) == 512.0;
        assert m.log2(m.pow2(y)) == y;
      }
    }
    40.0 * m.pow2(y)
  }

  /** The spectrum normal of 20 Hz is 0 and that of 20480 Hz is 1, and the
      way back gives the two frequencies again. */
  lemma SpectrumEnds(m: MathLib)
    requires LogLawful(m)
    ensures SpectrumToNormal(m, SpectrumLow) == 0.0
    ensures SpectrumToNormal(m, SpectrumHigh) == 1.0
    ensures NormalToSpectrum(m, 0.0) == SpectrumLow
    ensures NormalToSpectrum(m, 1.0) == SpectrumHigh
  {
    assert SpectrumLow / 40.0 == 0.5;
    assert SpectrumHigh / 40.0 == 512.0;
    assert m.pow2(m.log2(0.5)) == 0.5;
    assert m.pow2(m.log2(512.0)) == 512.0;
  }

  /** Inside the spectrum the clamp of `octave_spectrum_to_normal` never
      acts: the logarithm of `freq / 40` lies in [-1, 9]. */
  lemma SpectrumUnclamped(m: MathLib, freq: real)
    requires LogLawful(m) && SpectrumLow <= freq <= SpectrumHigh
    ensures -1.0 <= m.log2(freq / 40.0) <= 9.0
    ensures SpectrumToNormal(m, freq) == (m.log2(freq / 40.0) + 1.0) * 0.1
  {
    var q := freq / 40.0;
    assert 0.5 <= q <= 512.0;
    if 0.5 < q {
      assert m.log2(0.5) < m.log2(q);
    }
    if q < 512.0 {
      assert m.log2(q) < m.log2(512.0);
    }
  }

  /** `octave_normal_to_spectrum` undoes `octave_spectrum_to_normal` inside
      the spectrum. */
  lemma SpectrumRoundTrip(m: MathLib, freq: real)
    requires LogLawful(m) && SpectrumLow <= freq <= SpectrumHigh
    ensures NormalToSpectrum(m, SpectrumToNormal(m, freq)) == freq
  {
    SpectrumUnclamped(m, freq);
    var s: real := SpectrumToNormal(m, freq);
    assert 10.0 * s - 1.0 == m.log2(freq / 40.0);
    assert m.pow2(m.log2(freq / 40.0)) == freq / 40.0;
  }

  /** `octave_spectrum_to_normal` undoes `octave_normal_to_spectrum`, which
      lands inside the spectrum. */
  lemma NormalSpectrumRoundTrip(m: MathLib, n: Normal)
    requires LogLawful(m)
    ensures SpectrumLow <= NormalToSpectrum(m, n) <= SpectrumHigh
    ensures SpectrumToNormal(m, NormalToSpectrum(m, n)) == n
  {
    SpectrumEnds(m);
    NormalToSpectrumMonotone(m, 0.0, n);
    NormalToSpectrumMonotone(m, n, 1.0);
    var f := NormalToSpectrum(m, n);
    assert f / 40.0 == m.pow2(10.0 * n - 1.0);
    assert m.log2(m.pow2(10.0 * n - 1.0)) == 10.0 * n - 1.0;
  }

  /** Powers of two grow with the exponent, so higher spectrum normals give
      higher frequencies. */
  lemma NormalToSpectrumMonotone(m: MathLib, a: Normal, b: Normal)
    requires LogLawful(m) && a <= b
    ensures NormalToSpectrum(m, a) <= NormalToSpectrum(m, b)
    ensures a < b ==> NormalToSpectrum(m, a) < NormalToSpectrum(m, b)
  {
    var x, y := 10.0 * a - 1.0, 10.0 * b - 1.0;
    assert m.log2(m.pow2(x)) == x && m.log2(m.pow2(y)) == y;
  }

  /** Higher frequencies never get a lower spectrum normal, and inside the
      spectrum they get a strictly higher one. */
  lemma SpectrumMonotone(m: MathLib, a: real, b: real)
    requires LogLawful(m) && 0.0 < a <= b
    ensures SpectrumToNormal(m, a) <= SpectrumToNormal(m, b)
    ensures SpectrumLow <= a < b <= SpectrumHigh ==> SpectrumToNormal(m, a) < SpectrumToNormal(m, b)
  {
    if a < b {
      assert m.log2(a / 40.0) < m.log2(b / 40.0);
    }
    if SpectrumLow <= a < b <= SpectrumHigh {
      SpectrumUnclamped(m, a);
      SpectrumUnclamped(m, b);
    }
  }

  /** The lower bound `new` keeps: raised to 20 Hz when below it, kept
      otherwise. */
  function NarrowMin(min: real): (r: real)
    ensures SpectrumLow <= r && min <= r
    ensures min < SpectrumLow ==> r == SpectrumLow
    ensures SpectrumLow <= min ==> r == min
  {
    if min < SpectrumLow then SpectrumLow else min
  }

  /** The upper bound `new` keeps: lowered to 20480 Hz when above it, kept
      otherwise. */
  function NarrowMax(max: real): (r: real)
    ensures r <= SpectrumHigh && r <= max
    ensures SpectrumHigh < max ==> r == SpectrumHigh
    ensures max <= SpectrumHigh ==> r == max
  {
    if max > SpectrumHigh then SpectrumHigh else max
  }

  /** The check `OctaveParam::new` makes, on the bounds as they are passed
      in, before they are narrowed to the spectrum. */
  predicate RawBoundsCheck(min: real, max: real)
  {
    max > min
  }

  /** The check on the narrowed bounds, which is what the mapping needs: a
      non-empty range inside the spectrum. */
  predicate BoundsCheck(min: real, max: real)
  {
    NarrowMax(max) > NarrowMin(min)
  }

  /** The raw check lets through bounds whose narrowed range is inverted
      (5 Hz to 10 Hz becomes 20 Hz to 10 Hz) or empty (20480 Hz to 30000 Hz
      becomes 20480 Hz to 20480 Hz). Either way the spectrum normals of the
      two narrowed bounds coincide, so `value_to_normal` divides by zero. */
  lemma RawBoundsCheckAdmitsEmptyRange(m: MathLib)
    requires LogLawful(m)
    ensures RawBoundsCheck(5.0, 10.0) && NarrowMin(5.0) > NarrowMax(10.0)
    ensures SpectrumToNormal(m, NarrowMax(10.0)) - SpectrumToNormal(m, NarrowMin(5.0)) == 0.0
    ensures RawBoundsCheck(20480.0, 30000.0) && NarrowMin(20480.0) == NarrowMax(30000.0)
    ensures SpectrumToNormal(m, NarrowMax(30000.0)) - SpectrumToNormal(m, NarrowMin(20480.0)) == 0.0
  {
    SpectrumEnds(m);
    assert 10.0 / 40.0 == 0.25;
    assert m.log2(0.25) < m.log2(0.5);
  }

  /** The check on the narrowed bounds is stricter than the raw one, agrees
      with it on bounds already inside the spectrum, and guarantees a
      non-empty range inside the spectrum. */
  lemma BoundsCheckSound(min: real, max: real)
    ensures BoundsCheck(min, max) ==> RawBoundsCheck(min, max)
    ensures SpectrumLow <= min && max <= SpectrumHigh ==> (BoundsCheck(min, max) <==> RawBoundsCheck(min, max))
    ensures BoundsCheck(min, max) <==> SpectrumLow <= NarrowMin(min) < NarrowMax(max) <= SpectrumHigh
  {
  }

  class OctaveParam<ID> {
    const id: ID
    var value: real
    var defaultValue: real
    var normal: Normal
    var defaultNormal: Normal
    const minSpectrumNormal: Normal
    const spectrumNormalRange: real
    const min: real
    const max: real
    const range: real
    const rangeRecip: real
    /** The float library the mapping's `log2` and `powf` come from. */
    const math: MathLib

    /** The configuration `new` sets up: a non-empty range inside the
        spectrum, its width and the reciprocal of its width, and the
        spectrum normals of its two ends. */
    ghost predicate Bounded()
    {
      && SpectrumLow <= min < max <= SpectrumHigh
      && range == max - min && rangeRecip * range == 1.0
      && LogLawful(math)
      && minSpectrumNormal == SpectrumToNormal(math, min)
      && spectrumNormalRange == SpectrumToNormal(math, max) - minSpectrumNormal
    }

    /** Object invariant: both values lie in range, the default normal is the
        default value's, and value and normal agree in the direction of
        whichever of the two was set last. */
    ghost predicate Valid()
      reads this
    {
      && Bounded()
      && min <= value <= max
      && min <= defaultValue <= max
      && defaultNormal == ValueToNormal(defaultValue)
      && (normal == ValueToNormal(value) || value == NormalToValue(normal))
    }

    /** The `Param` accessors `id`, `normal` and `default_normal`. A valid
        parameter shows the default value's normal, and a normal that
        either is the value's or leads to the value. */
    function View(): (v: ParamView<ID>)
      reads this
      ensures v.id == id
      ensures Valid() ==> v.defaultNormal == ValueToNormal(defaultValue)
      ensures Valid() ==> v.normal == ValueToNormal(value) || value == NormalToValue(v.normal)
    {
      ParamView(id, normal, defaultNormal)
    }

    /** `OctaveParam::new`. The bounds are narrowed into the spectrum, and
        it panics unless the narrowed range is non-empty (`OctaveParam::new`
        checks the bounds before narrowing them, see `RawBoundsCheck`). Out of range
        initial and default values are clamped. */
    constructor (id: ID, min: real, max: real, value: real, defaultValue: real, math: MathLib)
      requires BoundsCheck(min, max)
      requires LogLawful(math)
      ensures Valid()
      ensures this.id == id && this.math == math
      ensures this.min == NarrowMin(min) && this.max == NarrowMax(max)
      ensures this.value == Clamp(value, this.min, this.max)
      ensures this.defaultValue == Clamp(defaultValue, this.min, this.max)
      ensures normal == ValueToNormal(this.value)
      ensures defaultNormal == ValueToNormal(this.defaultValue)
    {
      var lo := NarrowMin(min);
      var hi := NarrowMax(max);
      assert SpectrumLow <= lo < hi <= SpectrumHigh;
      DivMul(1.0, hi - lo);
      this.id := id;
      this.value := Clamp(value, lo, hi);
      this.defaultValue := Clamp(defaultValue, lo, hi);
      this.normal := 0.0;
      this.defaultNormal := 0.0;
      this.minSpectrumNormal := SpectrumToNormal(math, lo);
      this.spectrumNormalRange := SpectrumToNormal(math, hi) - SpectrumToNormal(math, lo);
      this.min := lo;
      this.max := hi;
      this.range := hi - lo;
      this.rangeRecip := 1.0 / (hi - lo);
      this.math := math;
      new;
      this.normal := ValueToNormal(this.value);
      this.defaultNormal := ValueToNormal(this.defaultValue);
    }

    /** `set_from_value`: nothing happens when `v` is the current value;
        otherwise the value becomes `v` clamped and the normal follows it. */
    method SetFromValue(v: real)
      requires Valid()
      modifies this`value, this`normal
      ensures Valid()
      ensures old(value) == v ==> value == old(value) && normal == old(normal)
      ensures old(value) != v ==> value == Clamp(v, min, max) && normal == ValueToNormal(value)
    {
      if value != v {
        value := Clamp(v, min, max);
        normal := ValueToNormal(value);
      }
    }

    /** `set_from_normal`: nothing happens when `n` is the current normal;
        otherwise `n` is stored as given and the value follows it. */
    method SetFromNormal(n: Normal)
      requires Valid()
      modifies this`value, this`normal
      ensures Valid()
      ensures normal == n
      ensures old(normal) == n ==> value == old(value)
      ensures old(normal) != n ==> value == NormalToValue(n)
    {
      if normal != n {
        value := NormalToValue(n);
        normal := n;
      }
    }

    /** `value_to_normal`: the frequency's position in the spectrum, rescaled
        to the range's share of it. The range's ends map to 0 and 1, and a
        positive frequency beyond either end to that end. */
    function ValueToNormal(v: real): (n: Normal)
      requires Bounded()
      ensures v == min ==> n == 0.0
      ensures v == max ==> n == 1.0
      ensures 0.0 < v <= min ==> n == 0.0
      ensures max <= v ==> n == 1.0
    {
      SpectrumMonotone(math, min, max);
      var s := SpectrumToNormal(math, v);
      assert 0.0 < v <= min ==> s <= minSpectrumNormal by {
        if 0.0 < v <= min {
          SpectrumMonotone(math, v, min);
        }
      }
      assert max <= v ==> minSpectrumNormal + spectrumNormalRange <= s by {
        if max <= v {
          SpectrumMonotone(math, max, v);
        }
      }
      ShareBounds(s, minSpectrumNormal, spectrumNormalRange);
      ToNormal(Share(s, minSpectrumNormal, spectrumNormalRange))
    }

    /** `normal_to_value`: the frequency at the spectrum normal that lies the
        given share of the way across the range's part of the spectrum. It
        lies in range, with 0 at `min` and 1 at `max`. */
    function NormalToValue(n: Normal): (v: real)
      requires Bounded()
      ensures min <= v <= max
      ensures n == 0.0 ==> v == min
      ensures n == 1.0 ==> v == max
    {
      SpectrumMonotone(math, min, max);
      var s := Across(n, minSpectrumNormal, spectrumNormalRange);
      AcrossBounds(n, minSpectrumNormal, spectrumNormalRange);
      WindowToSpectrum(math, min, max, s);
      NormalToSpectrum(math, ToNormal(s))
    }
  }

  /** The share of the way across a window of width `w` starting at `lo`
      at which the point `s` lies. */
  function Share(s: real, lo: real, w: real): real
    requires w != 0.0
  {
    (s - lo) / w
  }

  /** The point the share `n` of the way across a window of width `w`
      starting at `lo`. */
  function Across(n: real, lo: real, w: real): real
  {
    n * w + lo
  }

  /** The share of a point in a window of positive width is a normal,
      outside it it lies beyond the nearer end. */
  lemma ShareBounds(s: real, lo: real, w: real)
    requires 0.0 < w
    ensures lo <= s <= lo + w ==> 0.0 <= Share(s, lo, w) <= 1.0
    ensures s <= lo ==> Share(s, lo, w) <= 0.0
    ensures lo + w <= s ==> 1.0 <= Share(s, lo, w)
    ensures s == lo ==> Share(s, lo, w) == 0.0
  {
    QuotientAgainstUnit(s - lo, w);
  }

  /** A normal share of a window of non-negative width lands inside the
      window, at its ends for 0 and 1. */
  lemma AcrossBounds(n: Normal, lo: real, w: real)
    requires 0.0 <= w
    ensures lo <= Across(n, lo, w) <= lo + w
    ensures n == 0.0 ==> Across(n, lo, w) == lo
    ensures n == 1.0 ==> Across(n, lo, w) == lo + w
  {
    ScaleByUnit(n, w);
  }

  /** `Share` and `Across` undo each other. */
  lemma ShareAcross(n: real, lo: real, w: real)
    requires w != 0.0
    ensures Share(Across(n, lo, w), lo, w) == n
  {
    Cancel(n, w);
  }

  lemma AcrossShare(s: real, lo: real, w: real)
    requires w != 0.0
    ensures Across(Share(s, lo, w), lo, w) == s
  {
    DivMul(s - lo, w);
  }

  /** A larger point has a larger share of a window of positive width. */
  lemma ShareMonotone(a: real, b: real, lo: real, w: real)
    requires 0.0 < w && a <= b
    ensures Share(a, lo, w) <= Share(b, lo, w)
  {
    QuotientMonotone(a - lo, b - lo, w);
  }

  /** Moving a point by `d` moves its share by `d / w`. */
  lemma ShareShift(s: real, d: real, lo: real, w: real)
    requires w != 0.0
    ensures Share(s + d, lo, w) - Share(s, lo, w) == d / w
  {
    assert s + d - lo == (s - lo) + d;
    QuotientAdd(s - lo, d, w);
  }

  /** `normal_to_value` of a range [lo, hi] inside the spectrum: a spectrum
      normal between those of lo and hi needs no clamping, and the frequency
      there lies in [lo, hi], at the ends for the ends. */
  lemma WindowToSpectrum(m: MathLib, lo: real, hi: real, s: real)
    requires LogLawful(m) && SpectrumLow <= lo < hi <= SpectrumHigh
    requires SpectrumToNormal(m, lo) <= s <= SpectrumToNormal(m, hi)
    ensures lo <= NormalToSpectrum(m, ToNormal(s)) <= hi
    ensures s == SpectrumToNormal(m, lo) ==> NormalToSpectrum(m, ToNormal(s)) == lo
    ensures s == SpectrumToNormal(m, hi) ==> NormalToSpectrum(m, ToNormal(s)) == hi
  {
    SpectrumRoundTrip(m, lo);
    SpectrumRoundTrip(m, hi);
    NormalToSpectrumMonotone(m, SpectrumToNormal(m, lo), ToNormal(s));
    NormalToSpectrumMonotone(m, ToNormal(s), SpectrumToNormal(m, hi));
  }

  /** Round trip from frequency to normal and back: every frequency in
      range comes back unchanged. */
  lemma OctaveRoundTrip<ID>(p: OctaveParam<ID>, v: real)
    requires p.Bounded() && p.min <= v <= p.max
    ensures p.NormalToValue(p.ValueToNormal(v)) == v
  {
    var m, L, W := p.math, p.minSpectrumNormal, p.spectrumNormalRange;
    SpectrumMonotone(m, p.min, p.max);
    SpectrumMonotone(m, p.min, v);
    SpectrumMonotone(m, v, p.max);
    var sv := SpectrumToNormal(m, v);
    ShareBounds(sv, L, W);
    var q := Share(sv, L, W);
    assert p.ValueToNormal(v) == q;
    AcrossShare(sv, L, W);
    assert p.NormalToValue(q) == NormalToSpectrum(m, sv);
    SpectrumRoundTrip(m, v);
  }

  /** Round trip from normal to frequency and back: every normal comes back
      unchanged. */
  lemma OctaveNormalRoundTrip<ID>(p: OctaveParam<ID>, n: Normal)
    requires p.Bounded()
    ensures p.ValueToNormal(p.NormalToValue(n)) == n
  {
    var m, L, W := p.math, p.minSpectrumNormal, p.spectrumNormalRange;
    SpectrumMonotone(m, p.min, p.max);
    var s := Across(n, L, W);
    AcrossBounds(n, L, W);
    var f := NormalToSpectrum(m, s);
    assert p.NormalToValue(n) == f;
    NormalSpectrumRoundTrip(m, s);
    ShareAcross(n, L, W);
  }

  /** `value_to_normal` is strictly increasing over the range, so markers
      placed at increasing frequencies appear in order along the slider. */
  lemma OctaveMonotone<ID>(p: OctaveParam<ID>, a: real, b: real)
    requires p.Bounded() && p.min <= a < b <= p.max
    ensures p.ValueToNormal(a) < p.ValueToNormal(b)
  {
    SpectrumMonotone(p.math, p.min, p.max);
    SpectrumMonotone(p.math, a, b);
    ShareMonotone(SpectrumToNormal(p.math, a), SpectrumToNormal(p.math, b),
                  p.minSpectrumNormal, p.spectrumNormalRange);
    OctaveRoundTrip(p, a);
    OctaveRoundTrip(p, b);
  }

  /** One octave up is a tenth of the spectrum further along: doubling a
      frequency that stays inside the spectrum adds 0.1 to its spectrum
      normal. */
  lemma OctaveStep(m: MathLib, f: real)
    requires LogLawful(m) && SpectrumLow <= f && 2.0 * f <= SpectrumHigh
    ensures SpectrumToNormal(m, 2.0 * f) == SpectrumToNormal(m, f) + 0.1
  {
    SpectrumUnclamped(m, f);
    SpectrumUnclamped(m, 2.0 * f);
    var x := f / 40.0;
    assert (2.0 * f) / 40.0 == 2.0 * x;
    assert Twice(x) == (2.0 * f) / 40.0;
    assert m.log2(Twice(x)) == m.log2(x) + 1.0;
  }

  /** Octaves are evenly spaced along the slider: doubling a frequency of
      the range moves its normal by the same amount wherever it starts,
      the range's share of one tenth of the spectrum. */
  lemma OctavesEvenlySpaced<ID>(p: OctaveParam<ID>, f: real)
    requires p.Bounded() && p.min <= f && 2.0 * f <= p.max
    ensures p.ValueToNormal(2.0 * f) - p.ValueToNormal(f) == 0.1 / p.spectrumNormalRange
  {
    var m, L, W := p.math, p.minSpectrumNormal, p.spectrumNormalRange;
    var g := 2.0 * f;
    SpectrumMonotone(m, p.min, p.max);
    SpectrumMonotone(m, p.min, f);
    SpectrumMonotone(m, f, p.max);
    SpectrumMonotone(m, p.min, g);
    SpectrumMonotone(m, g, p.max);
    var sf, sg := SpectrumToNormal(m, f), SpectrumToNormal(m, g);
    ShareBounds(sf, L, W);
    ShareBounds(sg, L, W);
    assert p.ValueToNormal(f) == Share(sf, L, W);
    assert p.ValueToNormal(g) == Share(sg, L, W);
    OctaveStep(m, f);
    ShareShift(sf, 0.1, L, W);
  }

  /** Markers placed at increasing frequencies of the range appear in the
      same order along the slider. */
  lemma OctaveMarksInOrder<ID>(p: OctaveParam<ID>, fs: seq<real>)
    requires p.Bounded()
    requires forall i :: 0 <= i < |fs| ==> p.min <= fs[i] <= p.max
    requires forall i :: 0 < i < |fs| ==> fs[i - 1] < fs[i]
    ensures forall i, j :: 0 <= i < j < |fs| ==> p.ValueToNormal(fs[i]) < p.ValueToNormal(fs[j])
  {
    StepsIncreasing(fs);
    forall i, j | 0 <= i < j < |fs|
      ensures p.ValueToNormal(fs[i]) < p.ValueToNormal(fs[j])
    {
      OctaveMonotone(p, fs[i], fs[j]);
    }
  }

  /** The demo's frequency slider over the whole spectrum: its tick marks at
      20, 50, 100, 200, 400, 1000, 2000, 5000, 10000 and 20000 Hz appear in
      that order, the first at the left end. */
  method OctaveDemo(math: MathLib) returns (marks: seq<Normal>)
    requires LogLawful(math)
    ensures |marks| == 10 && marks[0] == 0.0
    ensures forall i, j :: 0 <= i < j < |marks| ==> marks[i] < marks[j]
  {
    var p := new OctaveParam<int>(0, 20.0, 20480.0, 1000.0, 1000.0, math);
    marks := SpectrumTicks(p);
  }

  /** The demo's tick marks on a slider over the whole spectrum. */
  method SpectrumTicks<ID>(p: OctaveParam<ID>) returns (marks: seq<Normal>)
    requires p.Bounded() && p.min == SpectrumLow && p.max == SpectrumHigh
    ensures |marks| == 10 && marks[0] == 0.0
    ensures forall i, j :: 0 <= i < j < |marks| ==> marks[i] < marks[j]
  {
    var fs := [20.0, 50.0, 100.0, 200.0, 400.0, 1000.0, 2000.0, 5000.0, 10000.0, 20000.0];
    OctaveMarksInOrder(p, fs);
    marks := seq(|fs|, i requires 0 <= i < |fs| => p.ValueToNormal(fs[i]));
  }

  /** Bounds wider than the spectrum are narrowed to it: asking for 5 Hz to
      30000 Hz gives 20 Hz to 20480 Hz, whose ends map to 0 and 1. */
  method OctaveNarrowingExample(math: MathLib) returns (min: real, max: real, bottom: Normal, top: Normal)
    requires LogLawful(math)
    ensures min == SpectrumLow && max == SpectrumHigh
    ensures bottom == 0.0 && top == 1.0
  {
    var p := new OctaveParam<int>(0, 5.0, 30000.0, 1000.0, 1000.0, math);
    min, max := p.min, p.max;
    bottom := p.ValueToNormal(20.0);
    top := p.ValueToNormal(20480.0);
  }
}

=== FILE: param_common.dfy ===
/** What the four parameter kinds share: the range clamp each one's
    `constrain` applies, and the view of a parameter that a widget reads
    through the `Param` trait. */
module ParamCommon {
  import opened Normals

  /** `constrain` of FloatParam, LogDBParam and OctaveParam: a value outside
      [lo, hi] is replaced by the bound it overshoots, a value inside is kept. */
  function Clamp(v: real, lo: real, hi: real): (r: real)
    requires lo < hi
    ensures lo <= r <= hi
    ensures lo <= v <= hi ==> r == v
    ensures v < lo ==> r == lo
    ensures hi < v ==> r == hi
  {
    if v <= lo then lo else if v >= hi then hi else v
  }

  /** `constrain` of IntParam, on integers. */
  function ClampInt(v: int, lo: int, hi: int): (r: int)
    requires lo < hi
    ensures lo <= r <= hi
    ensures lo <= v <= hi ==> r == v
    ensures v < lo ==> r == lo
    ensures hi < v ==> r == hi
  {
    if v <= lo then lo else if v >= hi then hi else v
  }

  /** The `Param` trait: what a widget reads from any parameter kind. */
  datatype ParamView<ID> = ParamView(id: ID, normal: Normal, defaultNormal: Normal)
}
